=== FILE: README.md ===
# pelican_bib in Dafny

A model of the Pelican plugin `pelican_bib` and proofs about it. The plugin
turns BibTeX bibliographies into template data for a static site:

- **The populator** (`add_publications_to_context`). It merges the entries of
  several BibTeX sources by citation key. It has pybtex format them and builds
  one record per formatted entry. It buckets the records into lists by the
  comma-separated values of a configurable field, with an optional fallback
  list for untagged entries. Then it stores `publications` and
  `publications_lists` in a generator's template context. `generator_init`
  runs it for the `PUBLICATIONS_SRC` setting.
- **The decoration-marker rewrite.** With HTML decoration on, the style wraps
  each part of a citation in `<:NAME>` … `</:NAME>` markers. Two regular
  expression passes then turn these into `<span class="NAME">` … `</span>`.
- **The `bibliography` directive** (`Bibliography.run`). It:
  - resolves its options: the shorthand style options override the
    `pybtex_style_args` dictionary, and `:class:` replaces the default CSS
    classes;
  - resolves file arguments against the site or the current document
    (`get_pelican_path`);
  - works on a copy of the generator's context and narrows the publications to
    one tag when `:filter_tag:` is given;
  - renders a template, then puts the original context object back.

pybtex is an oracle: the `Pybtex` datatype holds four opaque functions, for
parsing a file, parsing a string, formatting entries with a style, and
re-serialising one entry as BibTeX. Its one assumed guarantee
(`FormatsOnlyGiven`) is that it formats only entries it was given. Template
lookup and rendering are one opaque function that may fail. The `os.path`
operations, apart from `basename`, are opaque functions too, and total. The import of pybtex and the
site's optional `PelicanStyle` are inputs too.

Module layout, following the program:

- `Wrappers`: `Option`, `Result`, Python truthiness of a string setting, and
  `dict.get`.
- `Text`: `str.strip`, `str.split` on one character, `str.join`.
- `Markers`: the marker rewrite, and the tree of fragments a decorating style
  emits.
- `Bibdata`: entries, merging, records, tags, and the specification of the
  grouped lists (`Gather`, `Origins`, `Lists`).
- `Pelican`: settings, the `Context` and `Generator` classes, and the
  imperative populator, proved against `Populated`/`AfterPopulate`.
- `Bibliography`: option handling, paths, filtering, and the imperative
  `Run`, proved against `Outcome`.

Behaviour of the code that the model keeps as written:

- **A repeated tag repeats the record.** An entry is appended to a tag's list
  once per occurrence of the tag in its field, so `"a, a"` puts it in list `a`
  twice (`SplitTagsRepeated`, `GatherOrigins`). One might expect groups
  without duplicates; the code does not deduplicate, and the model follows
  the code.
- **A `key` field shadows the citation key.** A record's `key` is the citation
  key unless the BibTeX entry has a field named `key`; fields are laid over
  the fixed keys (`MakeRecord`).
- **Style arguments leak into the settings.** The populator merges its
  caller's style arguments into the `PUBLICATIONS_STYLE_ARGS` settings
  dictionary in place. So after a directive with style options, that
  dictionary keeps them (`Generator.styleArgs`, `SettingAfter`, the last
  `ensures` of `Run`). The model records this and does not treat it as
  intended.

## Model

| member | source | states |
|---|---|---|
| Text.Strip | pelican_bib/bib.py:158 | a stripped tag has no white space at either end; an all-space value strips to `""`; a value already trimmed is unchanged; no character is introduced |
| Text.StripIsInfix | pelican_bib/bib.py:158 | stripping removes only white space, and only at the two ends |
| Text.Split | pelican_bib/bib.py:158 | splitting on `,` gives at least one piece, no piece holds a comma, and joining the pieces with `,` gives back the value |
| Text.SplitJoin | pelican_bib/bib.py:158 | splitting undoes joining for comma-free pieces |
| Text.Join | pelican_bib/bib.py:260 | `glue.join(parts)`; no contract of its own: `Split` and `SplitJoin` state that splitting undoes it for pieces free of the separator |
| Markers.Substitute | pelican_bib/bib.py:174-175 | one `re.sub` pass, scanning left to right; no contract of its own: `PlainPrefix` (text that starts no marker is copied), `MarkerStep` (a complete marker is replaced and the scan resumes after its `>`) and `NoLeadUnchanged` (no lead, no change) state its behaviour |
| Markers.RenderMarkers | pelican_bib/bib.py:174-175 | the opening pass, then the closing pass; no contract of its own: `RenderDecorated`, `RenderSingleMarker`, `RenderEmphasised` and `RenderUnmarked` state what the two passes give |
| Markers.PlainPrefix | pelican_bib/bib.py:174-175 | text in which no marker lead can start, such as plain text or HTML tags like `<em>`, passes through either substitution unchanged, whatever follows it |
| Markers.MarkerStep | pelican_bib/bib.py:174-175 | a complete marker is replaced by its span text and the scan resumes after its `>` |
| Markers.NoLeadUnchanged | pelican_bib/bib.py:174-175 | a pass leaves a string with no marker lead unchanged |
| Markers.RenderUnmarked | pelican_bib/bib.py:171-175 | rendered text with no `<:` and no `</:` is stored exactly as rendered |
| Markers.CloseSurvivesOpenPass | pelican_bib/bib.py:174 | the opening pass leaves closing markers intact |
| Markers.SpanSurvivesClosePass | pelican_bib/bib.py:175 | the closing pass leaves the spans made by the opening pass intact |
| Markers.OpenPass | pelican_bib/bib.py:174 | the opening pass turns every opening marker of a decorated citation into its span and leaves the closing markers |
| Markers.OpenPassAll | pelican_bib/bib.py:174 | the same for a sequence of fragments |
| Markers.ClosePass | pelican_bib/bib.py:175 | the closing pass then turns every closing marker into `</span>` |
| Markers.ClosePassAll | pelican_bib/bib.py:175 | the same for a sequence of fragments |
| Markers.RenderDecorated | pelican_bib/htmldecorator.py:4-19 | for any citation the decorating style emits whose part names hold no angle brackets and whose text starts no marker lead (the backend's own `<em>`, `<a href="…">` and `<span …>` tags are allowed), at any nesting depth, the two passes yield exactly its span markup |
| Markers.RenderSingleMarker | pelican_bib/bib.py:171-175 | `<:foo>X</:foo>` becomes exactly `<span class="foo">X</span>`, also when `X` holds HTML tags |
| Markers.RenderEmphasised | pelican_bib/htmldecorator.py:42-43 | a part whose body the backend set in italics, such as a book title in `bib-btitle`, becomes a span around the unchanged `<em>…</em>` |
| Bibdata.MergeSources | pelican_bib/bib.py:124-128 | the merged map has a key exactly when some source has it |
| Bibdata.Sources | pelican_bib/bib.py:124-128 | the sources in read order: each file's parse at its own position, then the parse of the inline text exactly when it is non-empty |
| Bibdata.Collect | pelican_bib/bib.py:124-128 | an entry key is collected exactly when some file or the non-empty inline text defines it; which value wins is `MergeLastWins`, `InlineOverridesFiles` and `LaterFileWins` |
| Bibdata.MergeLastWins | pelican_bib/bib.py:124-128 | a merged entry is the one from the last source that defines its key |
| Bibdata.InlineOverridesFiles | pelican_bib/bib.py:127-128 | an entry in the directive's inline text overrides every file |
| Bibdata.LaterFileWins | pelican_bib/bib.py:125-126 | a file's entry wins over earlier files and loses only to later files or the inline text |
| Bibdata.MakeRecord | pelican_bib/bib.py:144-184 | a record has the fixed keys plus the entry's fields; every field keeps its source value and overrides a fixed key of the same name; `year`, `pdf`, `slides` and `poster` are `None` when the field is absent; `key`, `text` and `bibtex` hold the citation key, rendered text and BibTeX unless shadowed |
| Bibdata.SplitTags | pelican_bib/bib.py:158 | one tag per comma-separated piece, each the stripped piece, comma-free and trimmed |
| Bibdata.SplitTagsPair | pelican_bib/bib.py:158 | `x, y` splits into the tags `x` and `y` |
| Bibdata.SplitTagsTwo | pelican_bib/bib.py:158 | `"a, b"` yields the tags `a` and `b` |
| Bibdata.SplitTagsRepeated | pelican_bib/bib.py:158 | `"a, a"` yields the tag `a` twice |
| Bibdata.SplitTagsBlank | pelican_bib/bib.py:156-158 | a white-space-only value without commas yields the single tag `""` |
| Bibdata.EntryTags | pelican_bib/bib.py:151-158 | an entry has tags exactly when the split setting is set and the entry's field for it is non-empty, and then they are that field's split tags |
| Bibdata.ItemFor | pelican_bib/bib.py:141-184 | one record plus its tags per formatted entry; no contract of its own: `ItemOfEntry` states the record's key, text and fields and the item's tags |
| Bibdata.ItemsOf | pelican_bib/bib.py:141-143 | one item per formatted entry, in the order the style emitted them |
| Bibdata.ItemOfEntry | pelican_bib/bib.py:177-184 | the i-th record carries the i-th formatted entry's key and rendered text unless fields shadow them, carries every field, and the item's tags are the entry's |
| Bibdata.Publications | pelican_bib/bib.py:186 | the flat list is the items' records, one per item, in order |
| Bibdata.GatherOrigins | pelican_bib/bib.py:188-192 | each gathered list is the records of the items it selects, in their global order, each item exactly once per occurrence of the tag (or once when untagged) |
| Bibdata.TaggedItemInGroup | pelican_bib/bib.py:188-189 | an entry is in the list of every one of its tags |
| Bibdata.TagSet | pelican_bib/bib.py:162-163 | the labels with a list are exactly the tags some entry carries |
| Bibdata.UnusedTagGathersNothing | pelican_bib/bib.py:162-163 | a tag no entry carries gathers nothing |
| Bibdata.Lists | pelican_bib/bib.py:194-196 | `publications_lists` has a list for each tag and, when the fallback is shown, the untagged list under the fallback title, which replaces a tag list of the same name |
| Bibdata.ListsNonEmpty | pelican_bib/bib.py:188-196 | every published list is non-empty |
| Bibdata.NoFallbackWithoutTitle | pelican_bib/bib.py:191-196 | without a fallback title the labels are exactly the tags |
| Bibdata.UntaggedPlacement | pelican_bib/bib.py:191-196 | an untagged entry is in no tag list, and with a fallback title it is in the fallback list, which is then shown |
| Pelican.Context.Copy | pelican_bib/bib.py:295 | a new context object with the same contents |
| Pelican.Context.Update | pelican_bib/bib.py:299 | the given keys take their new values and every other key is kept |
| Pelican.Context.Set | pelican_bib/bib.py:304 | one key is replaced and every other key is kept |
| Pelican.StyleOf | pelican_bib/bib.py:107-121 | the site's `PelicanStyle` is used exactly when asked for and importable as a style; decoration follows `PUBLICATIONS_DECORATE_HTML` |
| Pelican.Kwargs | pelican_bib/bib.py:105-106 | the style's arguments are the setting's, with the caller's overriding them key by key |
| Pelican.Populated | pelican_bib/bib.py:199-201 | only `publications` and `publications_lists` are written: the record list and the tag lists; every other key is kept |
| Pelican.AfterPopulate | pelican_bib/bib.py:89-97 | without pybtex the context is unchanged; otherwise it gains exactly the two publication keys |
| Pelican.SettingAfter | pelican_bib/bib.py:105-106 | a present `PUBLICATIONS_STYLE_ARGS` dictionary absorbs the caller's style arguments; an absent one stays absent |
| Pelican.CollectEntries | pelican_bib/bib.py:123-128 | the loop over sources computes the merge of all files followed by the inline text |
| Pelican.CreateKeys | pelican_bib/bib.py:160-163 | every tag gets a list, new ones empty, existing ones untouched |
| Pelican.EntryTagLists | pelican_bib/bib.py:151-163 | the entry's tags are `EntryTags`, and each has a list afterwards |
| Pelican.AppendRecord | pelican_bib/bib.py:188-189 | each list gains the record once per occurrence of its tag |
| Pelican.GroupsStep | pelican_bib/bib.py:160-189 | creating keys and appending one entry keeps the lists equal to the gathered lists of the entries so far |
| Pelican.GroupsDone | pelican_bib/bib.py:194-196 | adding the non-empty fallback list under its title gives `Lists` |
| Pelican.BuildLists | pelican_bib/bib.py:130-196 | the loop over formatted entries produces exactly `Publications` and `Lists` of the items |
| Pelican.AddPublicationsToContext | pelican_bib/bib.py:83-201 | the context object stays the same and its contents become `AfterPopulate`; the style-argument setting becomes `SettingAfter` |
| Pelican.SrcPaths | pelican_bib/bib.py:77-79 | a single source path stands for a one-element list |
| Pelican.GeneratorInit | pelican_bib/bib.py:57-80 | the context is populated from `PUBLICATIONS_SRC` when it is set and left alone otherwise |
| Bibliography.Boolean | pelican_bib/bib.py:243-246 | accepts exactly `True` and `False`, mapping them to true and false, and rejects everything else |
| Bibliography.BooleanRoundTrip | pelican_bib/bib.py:243-246 | `boolean` accepts what `str` prints for a bool, and only that |
| Bibliography.StyleArgsOf | pelican_bib/bib.py:278-285 | the style arguments are the `pybtex_style_args` keys plus the shorthand options given; each shorthand option overrides its key, and the other keys keep their literal value |
| Bibliography.Basename | pelican_bib/bib.py:269 | the base name is the slash-free suffix that follows the last `/` |
| Bibliography.Basenames | pelican_bib/bib.py:269 | one base name per file argument |
| Bibliography.Classes | pelican_bib/bib.py:263-275 | the classes are `bibliography` followed by the base names of the file arguments, unless `:class:` replaces them all |
| Bibliography.TemplateName | pelican_bib/bib.py:261-271 | the template is `:template:`, else `PUBLICATIONS_DEFAULT_TEMPLATE`, else `bibliography` |
| Bibliography.TemplateValues | pelican_bib/bib.py:272-273 | the template options become context values under the same keys |
| Bibliography.IsRooted | pelican_bib/bib.py:324 | the `startswith('/')` or `startswith(os.sep)` test; no contract of its own: `PelicanPath`, `RootedIgnoresSource` and `RelativeIgnoresContentPath` state its effect |
| Bibliography.PelicanPath | pelican_bib/bib.py:322-335 | a path starting with `/` or the separator is joined, without its first character, to the site's path; any other is joined to the directory of the document using the directive |
| Bibliography.RootedIgnoresSource | pelican_bib/bib.py:324-326 | a rooted path resolves the same from every document |
| Bibliography.RelativeIgnoresContentPath | pelican_bib/bib.py:327-332 | a relative path does not depend on the site's path |
| Bibliography.PelicanPaths | pelican_bib/bib.py:291 | every file argument is resolved, in order |
| Bibliography.RenderContext | pelican_bib/bib.py:297-304 | the context the template sees: the old context, then the template options, then the two publication keys, narrowed by the filter tag; no contract of its own: `FilterTagSelectsList`, `FilterTagGathers` and `TemplateOptionsPrecedence` state it |
| Bibliography.Narrow | pelican_bib/bib.py:302-304 | without a filter tag the context is kept; with one, `publications` becomes the tag's list, and the lookup fails exactly when there is no such list |
| Bibliography.Outcome | pelican_bib/bib.py:287-320 | the result is the "no input" error exactly when there are neither arguments nor content; a rendered result carries `Classes`; a render error names the chosen template |
| Bibliography.FilterTagSelectsList | pelican_bib/bib.py:302-304 | with `:filter_tag:`, the template sees that tag's list as `publications`, and rendering fails exactly when the tag has no list |
| Bibliography.FilterTagGathers | pelican_bib/bib.py:302-304 | a filtered tag list is the gathered list of the entries carrying the tag |
| Bibliography.TemplateOptionsPrecedence | pelican_bib/bib.py:297-300 | template options override the generator's context, and the two publication keys are always the freshly computed ones: `publications` is the flat list and `publications_lists` the tag lists of the collected entries |
| Bibliography.FetchArguments | pelican_bib/bib.py:259-285 | the step-by-step option handling computes `TemplateName`, `Classes`, the filter tag, the template options and `StyleArgsOf` |
| Bibliography.Run | pelican_bib/bib.py:258-320 | `generator.context` is the same object with the same contents afterwards, on every path; the result is `Outcome`; the style-argument setting keeps the directive's style arguments |

## Left out

- pybtex's parsing, formatting, HTML rendering and BibTeX writing are opaque
  functions. Their errors (`PybtexError`) are not modelled, and pybtex is
  assumed to format only entries it was given. So the `KeyError` a foreign key
  would raise at `bibdata_entries[key]` cannot occur.
- The order of `bibdata_entries.values()` handed to the style is not kept:
  entries are a map. The order of the formatted entries is the style's output
  and is kept.
- pybtex's field dictionary is case-insensitive; the model's field map is
  case-sensitive.
- `htmldecorator.py` is modelled only by its observable output: a tree of
  fragments with `<:NAME>` markers (`Markers.Fragment`). Which pybtex methods
  it wraps is not modelled.
- Logging, the `StringIO` import, `PUBLICATIONS_PLUGIN_PATH` and the
  `sys.path.append`: environment plumbing with no effect on the context.
- Whether pybtex and `PelicanStyle` import is an input. The warnings on
  failure are not modelled.
- Jinja template lookup and rendering are one opaque function returning a
  result or an error message. docutils node construction is reduced to the
  `Container` value.
- `literal_eval` of `:options:` and `:pybtex_style_args:` is not modelled:
  options hold the evaluated dictionaries. Its errors are described below.
- docutils option conversion is taken as done before `run`, including
  `class_option` and the conversion of `:abbreviate_names:` by `boolean`. Its
  error report is not connected to `Run`.
- `os.path.join`, `abspath` and `dirname` are opaque functions, and
  `reprunicode` is the identity. `basename` is modelled for POSIX paths only.
- The order of the keys of `publications_lists` is not kept: it is a map.
- Exceptions from pybtex inside `run`'s `try` are not modelled. Neither are
  the errors of the two option literals:
  - a syntax error in `:options:` or `:pybtex_style_args:` is raised by
    `literal_eval` before the `try`, escapes `run` as a plain exception, and
    leaves the context unswapped;
  - an `:options:` literal that is not a dictionary fails inside the `try`,
    at `update`.
  Only the `filter_tag` lookup failure and template failures are modelled;
  error message texts are abstracted.
- `Markers.RenderDecorated`: its text fragments must start no `<:` or `</:`
  lead, even with text after them, and part names hold no angle brackets. The
  HTML backend escapes `<` in field values, and its own tags (`<em>`,
  `<a href="…">`, `<span class="bibtex-protected">`) start no lead, so only
  text the backend does not produce is excluded. A decorated part with an
  empty body still emits its markers in the model, where the backend emits
  nothing; that part renders to an empty span.
- `Context.Copy`: Python's copy is shallow, and the model's context values are
  immutable. Sharing between the copy and the original is not modelled.
- Settings values that are shared with the context are not modelled.
  `generator.context` starts as a shallow copy of the settings, so the
  `PUBLICATIONS_STYLE_ARGS` dictionary that the populator updates in place is
  also a value in the context. The model keeps that dictionary apart, as
  `Generator.styleArgs`. So `Run` restores the context key by key, not deeply:
  after a directive with style options, the restored context's copy of that
  dictionary has changed too.
- `register()` and `Bibliography.set_generator`: signal wiring. `Run` takes
  the generator as a parameter instead of reading the class attribute.

=== FILE: bibdata.dfy ===
/**
 * Bibliography data as the populator sees it: entries parsed by pybtex,
 * merged by citation key, turned into one record per formatted entry and
 * bucketed by tag. pybtex itself is an oracle (`Pybtex`).
 */
module Bibdata {
  import opened Wrappers
  import opened Text
  import opened Markers

  type FieldMap = map<string, string>

  /** A parsed BibTeX entry; only its type and its field dictionary matter here. */
  datatype Entry = Entry(entryType: string, fields: FieldMap)

  /** pybtex's `BibliographyData.entries`: citation key to entry. */
  type EntryMap = map<string, Entry>

  /** A Python literal from a directive option or a setting (`literal_eval` output). */
  datatype Literal = LStr(s: string) | LBool(b: bool) | LNone | LOther(repr: string)

  /** Keyword arguments of a pybtex style. */
  type StyleArgs = map<string, Literal>

  /** A formatted entry: its key and its text rendered by the HTML backend. */
  datatype Formatted = Formatted(key: string, html: string)

  /** The style class entries are formatted with: pybtex's `plain` or the site's own `PelicanStyle`. */
  datatype BaseStyle = PlainStyle | PelicanStyle

  /** A style class, possibly wrapped so that it emits `<:name>` markers around the parts of an entry. */
  datatype Style = Style(base: BaseStyle, decorated: bool)

  /** pybtex, as four opaque functions: parse a file, parse a string,
      format entries with a style built from the given class and keyword
      arguments, and re-serialise one entry as BibTeX. */
  datatype Pybtex = Pybtex(
    parseFile: string -> EntryMap,
    parseString: string -> EntryMap,
    format: (Style, StyleArgs, EntryMap) -> seq<Formatted>,
    write: (string, Entry) -> string)

  /** What pybtex guarantees: every formatted entry is one it was given. */
  ghost predicate FormatsOnlyGiven(p: Pybtex) {
    forall style, args, entries, f :: f in p.format(style, args, entries) ==> f.key in entries
  }

  lemma FormattedKnown(p: Pybtex, style: Style, args: StyleArgs, entries: EntryMap)
    requires FormatsOnlyGiven(p)
    ensures AllKnown(entries, p.format(style, args, entries))
  {
    var formatted := p.format(style, args, entries);
    forall i | 0 <= i < |formatted|
      ensures formatted[i].key in entries
    {
      assert formatted[i] in formatted;
    }
  }

  // ---------------------------------------------------------------------
  // Merging sources

  /** Successive `dict.update` calls: a key takes its value from the last source that has it. */
  function MergeSources(sources: seq<EntryMap>): (m: EntryMap)
    ensures forall k :: k in m <==> exists i :: 0 <= i < |sources| && k in sources[i]
  {
    if sources == [] then map[]
    else
      var front := sources[..|sources| - 1];
      var m0 := MergeSources(front);
      assert forall i :: 0 <= i < |front| ==> front[i] == sources[i];
      m0 + sources[|sources| - 1]
  }

  /** Later sources win. */
  lemma {:induction false} MergeLastWins(sources: seq<EntryMap>, key: string, i: nat)
    requires i < |sources| && key in sources[i]
    requires forall j :: i < j < |sources| ==> key !in sources[j]
    ensures key in MergeSources(sources) && MergeSources(sources)[key] == sources[i][key]
  {
    var n := |sources| - 1;
    if i < n {
      var front := sources[..n];
      assert forall j :: i < j < |front| ==> front[j] == sources[j];
      MergeLastWins(front, key, i);
    }
  }

  /** The parsed files, in order. */
  function FileSources(p: Pybtex, files: seq<string>): (s: seq<EntryMap>)
    ensures |s| == |files| && forall i :: 0 <= i < |files| ==> s[i] == p.parseFile(files[i])
  {
    seq(|files|, i requires 0 <= i < |files| => p.parseFile(files[i]))
  }

  /** The sources in the order they are read: each file, then the inline text if non-empty. */
  function Sources(p: Pybtex, files: seq<string>, refsString: string): (s: seq<EntryMap>)
    ensures |s| == |files| + (if refsString != "" then 1 else 0)
    ensures forall i :: 0 <= i < |files| ==> s[i] == p.parseFile(files[i])
    ensures refsString != "" ==> s[|files|] == p.parseString(refsString)
  {
    FileSources(p, files) + (if refsString != "" then [p.parseString(refsString)] else [])
  }

  /** The collected entries: a key is present exactly when some file or the inline text defines it. */
  function Collect(p: Pybtex, files: seq<string>, refsString: string): (entries: EntryMap)
    ensures forall k :: k in entries <==>
      (exists i :: 0 <= i < |files| && k in p.parseFile(files[i])) || (refsString != "" && k in p.parseString(refsString))
  {
    var s := Sources(p, files, refsString);
    assert forall k, i :: 0 <= i < |files| && k in p.parseFile(files[i]) ==> k in s[i];
    assert refsString != "" ==> s[|files|] == p.parseString(refsString);
    MergeSources(s)
  }

  /** An entry given inline in the directive overrides every file. */
  lemma InlineOverridesFiles(p: Pybtex, files: seq<string>, refsString: string, key: string)
    requires refsString != "" && key in p.parseString(refsString)
    ensures key in Collect(p, files, refsString)
    ensures Collect(p, files, refsString)[key] == p.parseString(refsString)[key]
  {
    var s := Sources(p, files, refsString);
    assert s[|files|] == p.parseString(refsString);
    MergeLastWins(s, key, |files|);
  }

  /** A file overrides earlier files, and is overridden only by later files or the inline text. */
  lemma LaterFileWins(p: Pybtex, files: seq<string>, refsString: string, key: string, i: nat)
    requires i < |files| && key in p.parseFile(files[i])
    requires forall j :: i < j < |files| ==> key !in p.parseFile(files[j])
    requires refsString == "" || key !in p.parseString(refsString)
    ensures key in Collect(p, files, refsString)
    ensures Collect(p, files, refsString)[key] == p.parseFile(files[i])[key]
  {
    var s := Sources(p, files, refsString);
    assert forall j :: 0 <= j < |files| ==> s[j] == p.parseFile(files[j]);
    MergeLastWins(s, key, i);
  }

  // ---------------------------------------------------------------------
  // Records

  /** A publication record as templates see it: a dictionary whose values may be `None`. */
  type Record = map<string, Option<string>>

  /** The keys every record carries before the entry's own fields are laid over it. */
  const FixedKeys: set<string> := {"key", "year", "text", "bibtex", "pdf", "slides", "poster"}

  /** One publication record: the fixed keys, then `update(entry.fields)`. */
  function MakeRecord(key: string, entry: Entry, text: string, bibtex: string): (r: Record)
    ensures r.Keys == FixedKeys + entry.fields.Keys
    ensures forall f :: f in entry.fields ==> r[f] == Some(entry.fields[f])
    ensures "key" !in entry.fields ==> r["key"] == Some(key)
    ensures "text" !in entry.fields ==> r["text"] == Some(text)
    ensures "bibtex" !in entry.fields ==> r["bibtex"] == Some(bibtex)
    ensures r["year"] == Get(entry.fields, "year")
    ensures r["pdf"] == Get(entry.fields, "pdf")
    ensures r["slides"] == Get(entry.fields, "slides")
    ensures r["poster"] == Get(entry.fields, "poster")
  {
    var fields := entry.fields;
    var fixed := map[
      "key" := Some(key),
      "year" := Get(fields, "year"),
      "text" := Some(text),
      "bibtex" := Some(bibtex),
      "pdf" := Get(fields, "pdf"),
      "slides" := Get(fields, "slides"),
      "poster" := Get(fields, "poster")];
    fixed + map f | f in fields :: Some(fields[f])
  }

  // ---------------------------------------------------------------------
  // Tags

  /** `[tag.strip() for tag in value.split(',')]`: trimmed, comma-free pieces, one per comma plus one. */
  function SplitTags(value: string): (tags: seq<string>)
    ensures |tags| == |Split(value, ',')| >= 1
    ensures forall i :: 0 <= i < |tags| ==> tags[i] == Strip(Split(value, ',')[i])
    ensures forall i :: 0 <= i < |tags| ==> ',' !in tags[i] && Trimmed(tags[i])
  {
    var pieces := Split(value, ',');
    seq(|pieces|, i requires 0 <= i < |pieces| => Strip(pieces[i]))
  }

  lemma StripLeadingBlank(c: char)
    requires !IsSpace(c)
    ensures Strip([' ', c]) == [c] && Strip([c]) == [c]
  {
    var s := [' ', c];
    assert s[1..] == [c];
    assert IsSpace(s[0]);
    assert TrimStart([c]) == [c];
    assert TrimStart(s) == [c];
    assert TrimEnd([c]) == [c];
  }

  lemma SplitPair(x: char, y: char)
    requires x != ',' && y != ','
    ensures Split([x, ',', ' ', y], ',') == [[x], [' ', y]]
  {
    var parts := [[x], [' ', y]];
    assert parts[1..] == [[' ', y]];
    assert Join(parts[1..], [',']) == [' ', y];
    assert Join(parts, [',']) == [x, ',', ' ', y];
    assert ',' !in parts[0] && ',' !in parts[1];
    SplitJoin(parts, ',');
  }

  lemma PairOf<T>(s: seq<T>)
    requires |s| == 2
    ensures s == [s[0], s[1]]
  {
  }

  /** Two pieces give two tags, each the stripped piece. */
  lemma SplitTagsOfTwo(v: string, a: string, b: string, a': string, b': string)
    requires Split(v, ',') == [a, b] && Strip(a) == a' && Strip(b) == b'
    ensures SplitTags(v) == [a', b']
  {
    var tags := SplitTags(v);
    assert tags[0] == a' && tags[1] == b';
    PairOf(tags);
  }

  /** `SplitTags` of two comma-separated words, the second after a blank. */
  lemma SplitTagsPair(x: char, y: char)
    requires !IsSpace(x) && !IsSpace(y) && x != ',' && y != ','
    ensures SplitTags([x, ',', ' ', y]) == [[x], [y]]
  {
    SplitPair(x, y);
    StripLeadingBlank(x);
    StripLeadingBlank(y);
    SplitTagsOfTwo([x, ',', ' ', y], [x], [' ', y], [x], [y]);
  }

  lemma SplitTagsTwo()
    ensures SplitTags("a, b") == ["a", "b"]
  {
    SplitTagsPair('a', 'b');
  }

  /** A repeated tag is listed twice. */
  lemma SplitTagsRepeated()
    ensures SplitTags("a, a") == ["a", "a"]
  {
    SplitTagsPair('a', 'a');
  }

  /** A value made only of white space (which holds no comma) yields the single tag `""`. */
  lemma SplitTagsBlank(value: string)
    requires AllSpace(value)
    ensures SplitTags(value) == [""]
  {
    assert !IsSpace(',');
    assert Join([value], [',']) == value;
    SplitJoin([value], ',');
  }

  /** The tags of one entry: none unless the split field is set and the entry has it non-empty. */
  function EntryTags(splitBy: Option<string>, entry: Entry): (tags: seq<string>)
    ensures tags == [] <==> !(Truthy(splitBy) && splitBy.value in entry.fields && entry.fields[splitBy.value] != "")
    ensures tags != [] ==> tags == SplitTags(entry.fields[splitBy.value])
  {
    if Truthy(splitBy) && splitBy.value in entry.fields && entry.fields[splitBy.value] != "" then
      SplitTags(entry.fields[splitBy.value])
    else []
  }

  // ---------------------------------------------------------------------
  // Items and groups

  /** One formatted entry after post-processing: its record and its tags. */
  datatype Item = Item(rec: Record, tags: seq<string>)

  predicate AllKnown(entries: EntryMap, formatted: seq<Formatted>) {
    forall i :: 0 <= i < |formatted| ==> formatted[i].key in entries
  }

  function ItemFor(entries: EntryMap, f: Formatted, write: (string, Entry) -> string, splitBy: Option<string>): Item
    requires f.key in entries
  {
    var entry := entries[f.key];
    Item(MakeRecord(f.key, entry, RenderMarkers(f.html), write(f.key, entry)), EntryTags(splitBy, entry))
  }

  /** One item per formatted entry, in the order the style emitted them. */
  function ItemsOf(entries: EntryMap, formatted: seq<Formatted>, write: (string, Entry) -> string, splitBy: Option<string>): (items: seq<Item>)
    requires AllKnown(entries, formatted)
    ensures |items| == |formatted|
    ensures forall i :: 0 <= i < |formatted| ==> items[i] == ItemFor(entries, formatted[i], write, splitBy)
  {
    seq(|formatted|, i requires 0 <= i < |formatted| => ItemFor(entries, formatted[i], write, splitBy))
  }

  /** The record of the `i`-th formatted entry carries its citation key and its
      rendered text unless the entry has fields of those names, and the item's
      tags are the entry's. */
  lemma ItemOfEntry(entries: EntryMap, formatted: seq<Formatted>, write: (string, Entry) -> string,
                    splitBy: Option<string>, i: nat)
    requires AllKnown(entries, formatted) && i < |formatted|
    ensures var it := ItemsOf(entries, formatted, write, splitBy)[i];
      var entry := entries[formatted[i].key];
      && ("key" !in entry.fields ==> "key" in it.rec && it.rec["key"] == Some(formatted[i].key))
      && ("text" !in entry.fields ==> "text" in it.rec && it.rec["text"] == Some(RenderMarkers(formatted[i].html)))
      && (forall f :: f in entry.fields ==> f in it.rec && it.rec[f] == Some(entry.fields[f]))
      && it.tags == EntryTags(splitBy, entry)
  {
  }

  /** The flat `publications` list. */
  function Publications(items: seq<Item>): (pubs: seq<Record>)
    ensures |pubs| == |items|
    ensures forall i :: 0 <= i < |items| ==> pubs[i] == items[i].rec
  {
    seq(|items|, i requires 0 <= i < |items| => items[i].rec)
  }

  lemma PublicationsSnoc(items: seq<Item>, it: Item)
    ensures Publications(items + [it]) == Publications(items) + [it.rec]
  {
    var a, b := Publications(items + [it]), Publications(items) + [it.rec];
    assert forall i :: 0 <= i < |a| ==> a[i] == b[i];
  }

  /** Which records a list collects: those carrying a tag, or the untagged ones. */
  datatype Selector = Tagged(tag: string) | NoTags

  /** How many times one item is appended to the list `sel` names: once per occurrence of the tag. */
  function Weight(sel: Selector, it: Item): nat {
    match sel
    case Tagged(t) => multiset(it.tags)[t]
    case NoTags => if it.tags == [] then 1 else 0
  }

  function Repeat<T>(x: T, n: nat): (r: seq<T>)
    ensures |r| == n && forall k :: 0 <= k < n ==> r[k] == x
  {
    seq(n, _ => x)
  }

  /** The list `sel` names after appending each item `Weight` times, in order. */
  function Gather(items: seq<Item>, sel: Selector): seq<Record> {
    if items == [] then []
    else
      var n := |items| - 1;
      Gather(items[..n], sel) + Repeat(items[n].rec, Weight(sel, items[n]))
  }

  lemma RepeatSnoc<T>(x: T, n: nat)
    ensures Repeat(x, n) + [x] == Repeat(x, n + 1)
  {
  }

  /** Appending one more item extends each gathered list by that item's copies. */
  lemma GatherSnoc(items: seq<Item>, it: Item, sel: Selector)
    ensures Gather(items + [it], sel) == Gather(items, sel) + Repeat(it.rec, Weight(sel, it))
  {
    assert (items + [it])[..|items|] == items;
  }

  /** One more item extends the untagged list by its record exactly when it has no tags. */
  lemma GatherUntaggedSnoc(items: seq<Item>, it: Item)
    ensures Gather(items + [it], NoTags) ==
      if it.tags == [] then Gather(items, NoTags) + [it.rec] else Gather(items, NoTags)
  {
    GatherSnoc(items, it, NoTags);
    if it.tags == [] {
      assert Repeat(it.rec, 1) == [it.rec];
    } else {
      assert Repeat(it.rec, 0) == [];
    }
  }

  /** For each element of `Gather(items, sel)`, the index of the item it came from. */
  function Origins(items: seq<Item>, sel: Selector): seq<int> {
    if items == [] then []
    else
      var n := |items| - 1;
      Origins(items[..n], sel) + Repeat(n, Weight(sel, items[n]))
  }

  lemma {:induction false} RepeatMultiset(x: int, n: nat)
    ensures multiset(Repeat(x, n))[x] == n
    ensures forall y :: y != x ==> multiset(Repeat(x, n))[y] == 0
  {
    if n > 0 {
      RepeatMultiset(x, n - 1);
      var a, b := Repeat(x, n), Repeat(x, n - 1);
      assert a == b + [x];
      assert multiset(a) == multiset(b) + multiset{x};
    } else {
      assert Repeat(x, n) == [];
    }
  }

  /** `g[k]` is the record of item `o[k]`, an item of positive weight. */
  ghost predicate PointsBack(items: seq<Item>, sel: Selector, o: seq<int>, g: seq<Record>) {
    && |o| == |g|
    && forall k :: 0 <= k < |o| ==> 0 <= o[k] < |items| && g[k] == items[o[k]].rec && Weight(sel, items[o[k]]) > 0
  }

  /** Origins never go backwards: the global order is kept. */
  ghost predicate Ascending(o: seq<int>) {
    forall k, l :: 0 <= k <= l < |o| ==> o[k] <= o[l]
  }

  /** Item `i` occurs exactly `Weight` times. */
  ghost predicate Counted(items: seq<Item>, sel: Selector, o: seq<int>) {
    forall i :: 0 <= i < |items| ==> multiset(o)[i] == Weight(sel, items[i])
  }

  /** `o` explains the gathered list `g`. */
  ghost predicate Explains(items: seq<Item>, sel: Selector, o: seq<int>, g: seq<Record>) {
    PointsBack(items, sel, o, g) && Ascending(o) && Counted(items, sel, o)
  }

  lemma PointsBackExtend(front: seq<Item>, it: Item, sel: Selector, o0: seq<int>, g0: seq<Record>)
    requires PointsBack(front, sel, o0, g0)
    ensures PointsBack(front + [it], sel, o0 + Repeat(|front|, Weight(sel, it)), g0 + Repeat(it.rec, Weight(sel, it)))
  {
    var items := front + [it];
    var n, w := |front|, Weight(sel, it);
    var o, g := o0 + Repeat(n, w), g0 + Repeat(it.rec, w);
    forall k | 0 <= k < |o|
      ensures 0 <= o[k] < |items| && g[k] == items[o[k]].rec && Weight(sel, items[o[k]]) > 0
    {
      if k < |o0| {
        assert o[k] == o0[k] && g[k] == g0[k];
        assert items[o0[k]] == front[o0[k]];
      } else {
        assert o[k] == n && g[k] == it.rec;
      }
    }
  }

  lemma AscendingExtend(o0: seq<int>, n: int, w: nat)
    requires Ascending(o0)
    requires forall k :: 0 <= k < |o0| ==> o0[k] < n
    ensures Ascending(o0 + Repeat(n, w))
  {
    var o := o0 + Repeat(n, w);
    forall k, l | 0 <= k <= l < |o|
      ensures o[k] <= o[l]
    {
      if l >= |o0| {
        assert o[l] == n;
        if k < |o0| { assert o[k] == o0[k]; }
      } else {
        assert o[k] == o0[k] && o[l] == o0[l];
      }
    }
  }

  lemma CountedExtend(front: seq<Item>, it: Item, sel: Selector, o0: seq<int>)
    requires Counted(front, sel, o0)
    requires forall k :: 0 <= k < |o0| ==> o0[k] < |front|
    ensures Counted(front + [it], sel, o0 + Repeat(|front|, Weight(sel, it)))
  {
    var items := front + [it];
    var n, w := |front|, Weight(sel, it);
    var o := o0 + Repeat(n, w);
    RepeatMultiset(n, w);
    assert multiset(o) == multiset(o0) + multiset(Repeat(n, w));
    assert n !in o0;
    assert n !in multiset(o0);
    forall i | 0 <= i < |items|
      ensures multiset(o)[i] == Weight(sel, items[i])
    {
      if i < n {
        assert items[i] == front[i];
        assert multiset(o)[i] == multiset(o0)[i];
      } else {
        assert items[i] == it;
      }
    }
  }

  /** One more item extends the explanation by its own index, `Weight` times. */
  lemma ExplainsExtend(front: seq<Item>, it: Item, sel: Selector, o0: seq<int>, g0: seq<Record>)
    requires Explains(front, sel, o0, g0)
    ensures Explains(front + [it], sel, o0 + Repeat(|front|, Weight(sel, it)), g0 + Repeat(it.rec, Weight(sel, it)))
  {
    PointsBackExtend(front, it, sel, o0, g0);
    AscendingExtend(o0, |front|, Weight(sel, it));
    CountedExtend(front, it, sel, o0);
  }

  /** `ExplainsExtend` for the last item of `items`. */
  lemma ExplainsSnoc(items: seq<Item>, sel: Selector, o0: seq<int>, g0: seq<Record>)
    requires items != [] && Explains(items[..|items| - 1], sel, o0, g0)
    ensures var n := |items| - 1;
      Explains(items, sel, o0 + Repeat(n, Weight(sel, items[n])), g0 + Repeat(items[n].rec, Weight(sel, items[n])))
  {
    var n := |items| - 1;
    ExplainsExtend(items[..n], items[n], sel, o0, g0);
    assert items[..n] + [items[n]] == items;
  }

  /** A gathered list is the items' records in their global order, each item
      appearing exactly `Weight` times and only items of positive weight. */
  lemma {:induction false} GatherOrigins(items: seq<Item>, sel: Selector)
    ensures Explains(items, sel, Origins(items, sel), Gather(items, sel))
  {
    if items != [] {
      var n := |items| - 1;
      var front := items[..n];
      GatherOrigins(front, sel);
      ExplainsSnoc(items, sel, Origins(front, sel), Gather(front, sel));
    }
  }

  /** Every item is appended to the list of each of its tags. */
  lemma TaggedItemInGroup(items: seq<Item>, i: nat, t: string)
    requires i < |items| && t in items[i].tags
    ensures items[i].rec in Gather(items, Tagged(t))
  {
    GatherOrigins(items, Tagged(t));
    var o := Origins(items, Tagged(t));
    assert multiset(o)[i] > 0;
    assert i in o;
    var k :| 0 <= k < |o| && o[k] == i;
    assert Gather(items, Tagged(t))[k] == items[i].rec;
  }

  /** The labels that receive a list: every tag of every item. */
  function TagSet(items: seq<Item>): (tags: set<string>)
    ensures forall t :: t in tags <==> exists i :: 0 <= i < |items| && t in items[i].tags
  {
    if items == [] then {}
    else
      var n := |items| - 1;
      var front := items[..n];
      assert forall i :: 0 <= i < n ==> front[i] == items[i];
      TagSet(front) + set t | t in items[n].tags
  }

  lemma TagSetSnoc(items: seq<Item>, it: Item)
    ensures TagSet(items + [it]) == TagSet(items) + set t | t in it.tags
  {
    assert (items + [it])[..|items|] == items;
  }

  /** A tag nobody carries has nothing gathered. */
  lemma {:induction false} UnusedTagGathersNothing(items: seq<Item>, t: string)
    requires t !in TagSet(items)
    ensures Gather(items, Tagged(t)) == []
  {
    if items != [] {
      var n := |items| - 1;
      assert forall i :: 0 <= i < n ==> items[..n][i] == items[i];
      UnusedTagGathersNothing(items[..n], t);
      assert t !in items[n].tags;
      assert multiset(items[n].tags)[t] == 0;
    }
  }

  /** Whether the fallback list for untagged entries is published. */
  predicate FallbackShown(items: seq<Item>, untaggedTitle: Option<string>) {
    Truthy(untaggedTitle) && Gather(items, NoTags) != []
  }

  /** `publications_lists`: one list per tag, then the untagged list under the
      fallback title when it is set and the list is non-empty, replacing any
      tag group of the same name. */
  function Lists(items: seq<Item>, untaggedTitle: Option<string>): (lists: map<string, seq<Record>>)
    ensures forall t :: t in lists <==> t in TagSet(items) || (FallbackShown(items, untaggedTitle) && t == untaggedTitle.value)
    ensures FallbackShown(items, untaggedTitle) ==> lists[untaggedTitle.value] == Gather(items, NoTags)
    ensures forall t :: t in TagSet(items) && !(FallbackShown(items, untaggedTitle) && t == untaggedTitle.value) ==>
      lists[t] == Gather(items, Tagged(t))
  {
    var tagged := map t | t in TagSet(items) :: Gather(items, Tagged(t));
    if FallbackShown(items, untaggedTitle) then tagged[untaggedTitle.value := Gather(items, NoTags)] else tagged
  }

  /** Every published list is non-empty. */
  lemma ListsNonEmpty(items: seq<Item>, untaggedTitle: Option<string>, t: string)
    requires t in Lists(items, untaggedTitle)
    ensures Lists(items, untaggedTitle)[t] != []
  {
    if !(FallbackShown(items, untaggedTitle) && t == untaggedTitle.value) {
      var i :| 0 <= i < |items| && t in items[i].tags;
      TaggedItemInGroup(items, i, t);
    }
  }

  /** Without a fallback title the untagged entries get no list of their own. */
  lemma NoFallbackWithoutTitle(items: seq<Item>, untaggedTitle: Option<string>)
    requires !Truthy(untaggedTitle)
    ensures Lists(items, untaggedTitle).Keys == TagSet(items)
  {
  }

  /** An untagged item is in no tag group, and, when the title is set, in the fallback list. */
  lemma UntaggedPlacement(items: seq<Item>, untaggedTitle: Option<string>, i: nat)
    requires i < |items| && items[i].tags == []
    ensures forall t :: i !in Origins(items, Tagged(t))
    ensures Truthy(untaggedTitle) ==>
      FallbackShown(items, untaggedTitle) && items[i].rec in Lists(items, untaggedTitle)[untaggedTitle.value]
  {
    forall t
      ensures i !in Origins(items, Tagged(t))
    {
      GatherOrigins(items, Tagged(t));
      assert multiset(Origins(items, Tagged(t)))[i] == 0;
    }
    GatherOrigins(items, NoTags);
    var o := Origins(items, NoTags);
    assert multiset(o)[i] == 1;
    assert i in o;
    var k :| 0 <= k < |o| && o[k] == i;
    assert Gather(items, NoTags)[k] == items[i].rec;
  }
}

=== FILE: bibliography.dfy ===
/**
 * The `bibliography` reStructuredText directive: it reads its own option
 * set, populates a copy of the generator's context, optionally narrows the
 * publications to one tag, renders a template and restores the context.
 */
module Bibliography {
  import opened Wrappers
  import opened Text
  import opened Bibdata
  import opened Pelican

  /** The directive's options after docutils has applied each option's converter;
      an option that was not given is `None`. `templateOptions` and `styleArgs`
      hold the dictionaries their literals evaluate to. */
  datatype Options = Options(
    template: Option<string>,
    templateOptions: Option<map<string, Literal>>,
    classes: Option<seq<string>>,
    filterTag: Option<string>,
    styleArgs: Option<StyleArgs>,
    sortingStyle: Option<string>,
    abbreviateNames: Option<bool>,
    nameStyle: Option<string>)

  /** One use of the directive: its arguments (file names), its content lines,
      its options and the source file it appears in. */
  datatype Directive = Directive(arguments: seq<string>, content: seq<string>, options: Options, source: string)

  /** The node the directive returns: a container with CSS classes around raw HTML. */
  datatype Container = Container(classes: seq<string>, html: string)

  /** Why rendering failed. */
  datatype Cause = LookupFailed(tag: string) | TemplateFailure(message: string)

  /** The directive's two errors: no input at all, or a failure while rendering the named template. */
  datatype DirectiveError = NoInput | RenderError(template: string, cause: Cause)

  /** The `os.path` operations the path resolution relies on, and `os.sep`. */
  datatype PathOps = PathOps(sep: char, join: (string, string) -> string,
                             abspath: string -> string, dirname: string -> string)

  /** Everything outside the plugin the directive calls: pybtex (absent when it cannot
      be imported), the custom style import, `os.path`, and template lookup and rendering. */
  datatype Env = Env(pybtex: Option<Pybtex>, plugin: PluginStyle, paths: PathOps,
                     render: (string, map<string, Value>) -> Result<string, string>)

  // ---------------------------------------------------------------------
  // Options

  /** The converter of `abbreviate_names`: exactly the words `True` and `False` are accepted. */
  function Boolean(argument: Option<string>): (r: Result<bool, string>)
    ensures r.Success? <==> argument == Some("True") || argument == Some("False")
    ensures r.Success? ==> (r.value <==> argument == Some("True"))
  {
    if argument == Some("True") then Success(true)
    else if argument == Some("False") then Success(false)
    else Failure("must be boolean")
  }

  /** `str(b)` */
  function PyStr(b: bool): string {
    if b then "True" else "False"
  }

  /** `boolean` accepts what `str` prints for a bool, and nothing else. */
  lemma BooleanRoundTrip(argument: Option<string>, b: bool)
    ensures Boolean(Some(PyStr(b))) == Success(b)
    ensures Boolean(argument) == Success(b) ==> argument == Some(PyStr(b))
  {
  }

  /** Whether a style argument is set by one of the shorthand options. */
  predicate Shorthand(o: Options, k: string) {
    || (k == "sorting_style" && o.sortingStyle.Some?)
    || (k == "abbreviate_names" && o.abbreviateNames.Some?)
    || (k == "name_style" && o.nameStyle.Some?)
  }

  /** The style arguments a directive passes on: the `pybtex_style_args` dictionary,
      with each shorthand option given overriding the key of the same name. */
  function StyleArgsOf(o: Options): (args: StyleArgs)
    ensures forall k :: k in args <==> k in o.styleArgs.GetOr(map[]) || Shorthand(o, k)
    ensures o.sortingStyle.Some? ==> "sorting_style" in args && args["sorting_style"] == LStr(o.sortingStyle.value)
    ensures o.abbreviateNames.Some? ==> "abbreviate_names" in args && args["abbreviate_names"] == LBool(o.abbreviateNames.value)
    ensures o.nameStyle.Some? ==> "name_style" in args && args["name_style"] == LStr(o.nameStyle.value)
    ensures forall k :: k in o.styleArgs.GetOr(map[]) && !Shorthand(o, k) ==> args[k] == o.styleArgs.GetOr(map[])[k]
  {
    var literal := o.styleArgs.GetOr(map[]);
    var sorted := if o.sortingStyle.Some? then literal["sorting_style" := LStr(o.sortingStyle.value)] else literal;
    var abbreviated := if o.abbreviateNames.Some? then sorted["abbreviate_names" := LBool(o.abbreviateNames.value)] else sorted;
    if o.nameStyle.Some? then abbreviated["name_style" := LStr(o.nameStyle.value)] else abbreviated
  }

  /** `os.path.basename` on POSIX: the part of `p` after its last `/`. */
  function Basename(p: string): (b: string)
    ensures '/' !in b
    ensures |b| <= |p| && b == p[|p| - |b|..]
    ensures |b| < |p| ==> p[|p| - |b| - 1] == '/'
  {
    if p == [] || p[|p| - 1] == '/' then []
    else
      var front := p[..|p| - 1];
      var b0 := Basename(front);
      assert front[|front| - |b0|..] + [p[|p| - 1]] == p[|p| - |b0| - 1..];
      b0 + [p[|p| - 1]]
  }

  function Basenames(paths: seq<string>): (names: seq<string>)
    ensures |names| == |paths| && forall i :: 0 <= i < |paths| ==> names[i] == Basename(paths[i])
  {
    seq(|paths|, i requires 0 <= i < |paths| => Basename(paths[i]))
  }

  /** The container's CSS classes: `bibliography` followed by the base name of each
      file argument, unless the `class` option replaces them all. */
  function Classes(arguments: seq<string>, o: Options): (c: seq<string>)
    ensures o.classes.Some? ==> c == o.classes.value
    ensures o.classes.None? ==> |c| == |arguments| + 1 && c[0] == "bibliography"
    ensures o.classes.None? ==> forall i :: 0 <= i < |arguments| ==> c[i + 1] == Basename(arguments[i])
  {
    if o.classes.Some? then o.classes.value
    else
      var names := Basenames(arguments);
      var c := ["bibliography"] + names;
      assert forall i :: 0 <= i < |arguments| ==> c[i + 1] == names[i];
      c
  }

  /** The template: the `template` option, else the configured default, else `bibliography`. */
  function TemplateName(settings: Settings, o: Options): (name: string)
    ensures o.template.Some? ==> name == o.template.value
    ensures o.template.None? && settings.defaultTemplate.Some? ==> name == settings.defaultTemplate.value
    ensures o.template.None? && settings.defaultTemplate.None? ==> name == "bibliography"
  {
    if o.template.Some? then o.template.value else settings.defaultTemplate.GetOr("bibliography")
  }

  /** The template options as context values. */
  function TemplateValues(options: map<string, Literal>): (values: map<string, Value>)
    ensures values.Keys == options.Keys
    ensures forall k :: k in options ==> values[k] == Py(options[k])
  {
    map k | k in options :: Py(options[k])
  }

  // ---------------------------------------------------------------------
  // Paths

  /** A path that starts with `/` or with the platform separator. */
  predicate IsRooted(ops: PathOps, p: string) {
    p != [] && (p[0] == '/' || p[0] == ops.sep)
  }

  /** `get_pelican_path`: a rooted path is taken relative to the site's content
      path, any other relative to the directory of the file using the directive.
      `join`, `abspath` and `dirname` are opaque, so the contract is the choice
      between the two branches itself: which base each kind of path is joined to,
      and that a rooted path loses its first character. */
  function PelicanPath(ops: PathOps, contentPath: string, source: string, p: string): (r: string)
    ensures IsRooted(ops, p) ==> r == ops.abspath(ops.join(contentPath, p[1..]))
    ensures !IsRooted(ops, p) ==> r == ops.abspath(ops.join(ops.dirname(ops.abspath(source)), p))
  {
    if IsRooted(ops, p) then ops.abspath(ops.join(contentPath, p[1..]))
    else ops.abspath(ops.join(ops.dirname(ops.abspath(source)), p))
  }

  /** Where a rooted path leads does not depend on which file uses the directive. */
  lemma RootedIgnoresSource(ops: PathOps, contentPath: string, s1: string, s2: string, p: string)
    requires IsRooted(ops, p)
    ensures PelicanPath(ops, contentPath, s1, p) == PelicanPath(ops, contentPath, s2, p)
  {
  }

  /** Where a relative path leads does not depend on the site's content path. */
  lemma RelativeIgnoresContentPath(ops: PathOps, c1: string, c2: string, source: string, p: string)
    requires !IsRooted(ops, p)
    ensures PelicanPath(ops, c1, source, p) == PelicanPath(ops, c2, source, p)
  {
  }

  function PelicanPaths(ops: PathOps, contentPath: string, source: string, paths: seq<string>): (r: seq<string>)
    ensures |r| == |paths| && forall i :: 0 <= i < |paths| ==> r[i] == PelicanPath(ops, contentPath, source, paths[i])
  {
    seq(|paths|, i requires 0 <= i < |paths| => PelicanPath(ops, contentPath, source, paths[i]))
  }

  // ---------------------------------------------------------------------
  // Filtering and rendering

  /** `filter_tag`: replace `publications` by the list of the tag. Looking the
      tag up fails when it has no list (or there is no dictionary of lists). */
  function Narrow(ctx: map<string, Value>, filterTag: Option<string>): (r: Result<map<string, Value>, Cause>)
    ensures !Truthy(filterTag) ==> r == Success(ctx)
    ensures Truthy(filterTag) ==>
      (r.Success? <==> "publications_lists" in ctx && ctx["publications_lists"].Groups?
                       && filterTag.value in ctx["publications_lists"].groups)
    ensures Truthy(filterTag) && r.Success? ==>
      r.value == ctx["publications" := Records(ctx["publications_lists"].groups[filterTag.value])]
    ensures r.Failure? ==> r.error == LookupFailed(filterTag.value)
  {
    if !Truthy(filterTag) then Success(ctx)
    else
      var lists := Get(ctx, "publications_lists");
      if lists.Some? && lists.value.Groups? && filterTag.value in lists.value.groups then
        Success(ctx["publications" := Records(lists.value.groups[filterTag.value])])
      else Failure(LookupFailed(filterTag.value))
  }

  ghost predicate EnvValid(env: Env) {
    env.pybtex.Some? ==> FormatsOnlyGiven(env.pybtex.value)
  }

  /** The items the directive's bibliography yields, when pybtex is present. */
  function DirectiveItems(d: Directive, settings: Settings, contentPath: string,
                          setting: Option<StyleArgs>, env: Env): seq<Item>
    requires EnvValid(env) && env.pybtex.Some?
  {
    PopulatedItems(env.pybtex.value, StyleOf(settings, env.plugin), Kwargs(setting, StyleArgsOf(d.options)),
                   settings.splitBy, PelicanPaths(env.paths, contentPath, d.source, d.arguments),
                   Join(d.content, "\n"))
  }

  /** The context the template is rendered with: the generator's context, then the
      template options, then the publications, then the tag filter. */
  function RenderContext(d: Directive, settings: Settings, contentPath: string, ctx: map<string, Value>,
                         setting: Option<StyleArgs>, env: Env): (r: Result<map<string, Value>, Cause>)
    requires EnvValid(env)
  {
    var withOptions := ctx + TemplateValues(d.options.templateOptions.GetOr(map[]));
    var files := PelicanPaths(env.paths, contentPath, d.source, d.arguments);
    var populated := AfterPopulate(withOptions, settings, setting, env.pybtex, env.plugin,
                                   files, Join(d.content, "\n"), StyleArgsOf(d.options));
    Narrow(populated, d.options.filterTag)
  }

  /** What `run` returns. */
  function Outcome(d: Directive, settings: Settings, contentPath: string, ctx: map<string, Value>,
                   setting: Option<StyleArgs>, env: Env): (r: Result<Container, DirectiveError>)
    requires EnvValid(env)
    ensures r == Failure(NoInput) <==> d.arguments == [] && d.content == []
    ensures r.Success? ==> r.value.classes == Classes(d.arguments, d.options)
    ensures r.Failure? && r.error.RenderError? ==> r.error.template == TemplateName(settings, d.options)
  {
    if d.arguments == [] && d.content == [] then Failure(NoInput)
    else
      var name := TemplateName(settings, d.options);
      match RenderContext(d, settings, contentPath, ctx, setting, env)
      case Failure(cause) => Failure(RenderError(name, cause))
      case Success(rc) =>
        match env.render(name, rc)
        case Failure(message) => Failure(RenderError(name, TemplateFailure(message)))
        case Success(html) => Success(Container(Classes(d.arguments, d.options), html))
  }

  /** With `filter_tag` set, the template sees exactly the list of that tag as
      `publications`, and rendering fails exactly when the tag has no list. */
  lemma FilterTagSelectsList(d: Directive, settings: Settings, contentPath: string, ctx: map<string, Value>,
                             setting: Option<StyleArgs>, env: Env)
    requires EnvValid(env) && env.pybtex.Some? && Truthy(d.options.filterTag)
    ensures var lists := Lists(DirectiveItems(d, settings, contentPath, setting, env), settings.untaggedTitle);
      var tag := d.options.filterTag.value;
      var r := RenderContext(d, settings, contentPath, ctx, setting, env);
      && (r.Success? <==> tag in lists)
      && (r.Success? ==> r.value["publications"] == Records(lists[tag]))
      && (r.Failure? ==> r.error == LookupFailed(tag))
  {
  }

  /** A tag group seen through `filter_tag` holds the records of the entries carrying the tag. */
  lemma FilterTagGathers(d: Directive, settings: Settings, contentPath: string, ctx: map<string, Value>,
                         setting: Option<StyleArgs>, env: Env)
    requires EnvValid(env) && env.pybtex.Some? && Truthy(d.options.filterTag)
    requires var items := DirectiveItems(d, settings, contentPath, setting, env);
      d.options.filterTag.value in TagSet(items)
      && !(FallbackShown(items, settings.untaggedTitle) && settings.untaggedTitle.value == d.options.filterTag.value)
    ensures var items := DirectiveItems(d, settings, contentPath, setting, env);
      var r := RenderContext(d, settings, contentPath, ctx, setting, env);
      r.Success? && r.value["publications"] == Records(Gather(items, Tagged(d.options.filterTag.value)))
  {
    FilterTagSelectsList(d, settings, contentPath, ctx, setting, env);
  }

  /** Without `filter_tag`, template options override the generator's context, and the
      two publication keys are always the freshly computed ones. */
  lemma TemplateOptionsPrecedence(d: Directive, settings: Settings, contentPath: string, ctx: map<string, Value>,
                                  setting: Option<StyleArgs>, env: Env, k: string)
    requires EnvValid(env) && env.pybtex.Some? && !Truthy(d.options.filterTag)
    ensures var opts := d.options.templateOptions.GetOr(map[]);
      var items := DirectiveItems(d, settings, contentPath, setting, env);
      var r := RenderContext(d, settings, contentPath, ctx, setting, env);
      && r.Success?
      && (k in r.value <==> k in ctx || k in opts || k == "publications" || k == "publications_lists")
      && (k in opts && k != "publications" && k != "publications_lists" ==> r.value[k] == Py(opts[k]))
      && (k in ctx && k !in opts && k != "publications" && k != "publications_lists" ==> r.value[k] == ctx[k])
      && r.value["publications"] == Records(Publications(items))
      && r.value["publications_lists"] == Groups(Lists(items, settings.untaggedTitle))
  {
  }

  // ---------------------------------------------------------------------
  // The directive

  /** The start of `run`: defaults, then each option present overriding its default;
      the shorthand style options are applied after the `pybtex_style_args` dictionary. */
  method FetchArguments(d: Directive, settings: Settings)
    returns (templateName: string, templateOptions: map<string, Literal>, classes: seq<string>,
             filterTag: Option<string>, styleArgs: StyleArgs)
    ensures templateName == TemplateName(settings, d.options)
    ensures templateOptions == d.options.templateOptions.GetOr(map[])
    ensures classes == Classes(d.arguments, d.options)
    ensures filterTag == d.options.filterTag
    ensures styleArgs == StyleArgsOf(d.options)
  {
    var o := d.options;
    templateName := settings.defaultTemplate.GetOr("bibliography");
    templateOptions := map[];
    classes := ["bibliography"];
    filterTag := None;
    styleArgs := map[];

    if d.arguments != [] {
      classes := classes + Basenames(d.arguments);
    }
    if o.template.Some? {
      templateName := o.template.value;
    }
    if o.templateOptions.Some? {
      templateOptions := o.templateOptions.value;
    }
    if o.classes.Some? {
      classes := o.classes.value;
    }
    if o.filterTag.Some? {
      filterTag := o.filterTag;
    }
    if o.styleArgs.Some? {
      styleArgs := styleArgs + o.styleArgs.value;
      assert styleArgs == o.styleArgs.value;
    }
    if o.sortingStyle.Some? {
      styleArgs := styleArgs["sorting_style" := LStr(o.sortingStyle.value)];
    }
    if o.abbreviateNames.Some? {
      styleArgs := styleArgs["abbreviate_names" := LBool(o.abbreviateNames.value)];
    }
    if o.nameStyle.Some? {
      styleArgs := styleArgs["name_style" := LStr(o.nameStyle.value)];
    }
    if d.arguments == [] && o.classes.None? {
      assert classes == ["bibliography"] + Basenames([]);
    }
  }

  /** `Bibliography.run`: the generator's context object and contents are the
      same afterwards whatever happens; only `PUBLICATIONS_STYLE_ARGS` keeps the
      directive's style arguments. */
  method Run(d: Directive, g: Generator, env: Env) returns (res: Result<Container, DirectiveError>)
    requires EnvValid(env)
    modifies g
    ensures g.context == old(g.context) && g.context.entries == old(g.context.entries)
    ensures res == Outcome(d, g.settings, g.path, old(g.context.entries), old(g.styleArgs), env)
    ensures g.styleArgs == SettingAfter(old(g.styleArgs), if res == Failure(NoInput) then None else env.pybtex,
                                        StyleArgsOf(d.options))
  {
    var refsFiles := d.arguments;
    var refsString := Join(d.content, "\n");
    var templateName, templateOptions, classes, filterTag, styleArgs := FetchArguments(d, g.settings);

    if d.content == [] && refsFiles == [] {
      return Failure(NoInput);
    }

    var files := PelicanPaths(env.paths, g.path, d.source, refsFiles);

    // work on a copy; the original context object is put back afterwards
    var original := g.context;
    var copy := original.Copy();
    g.context := copy;

    copy.Update(TemplateValues(templateOptions));
    AddPublicationsToContext(g, env.pybtex, env.plugin, files, refsString, styleArgs);

    var failure: Option<Cause> := None;
    var html := "";
    if Truthy(filterTag) {
      var lists := Get(copy.entries, "publications_lists");
      if lists.Some? && lists.value.Groups? && filterTag.value in lists.value.groups {
        copy.Set("publications", Records(lists.value.groups[filterTag.value]));
      } else {
        failure := Some(LookupFailed(filterTag.value));
      }
    }
    if failure.None? {
      var rendered := env.render(templateName, copy.entries);
      if rendered.Failure? {
        failure := Some(TemplateFailure(rendered.error));
      } else {
        html := rendered.value;
      }
    }

    g.context := original;

    if failure.Some? {
      res := Failure(RenderError(templateName, failure.value));
    } else {
      res := Success(Container(classes, html));
    }
  }
}

=== FILE: markers.dfy ===
/**
 * Decoration markers. With HTML decoration on, each formatted part of a
 * citation is wrapped in `<:NAME>` … `</:NAME>`; after rendering, two
 * regular-expression substitutions turn these into spans:
 *   `<:([^>]*)>`  becomes `<span class="\1">`
 *   `</:([^>]*)>` becomes `</span>`
 * Each substitution scans left to right and rewrites non-overlapping
 * matches; a match runs from its lead to the first `>` after it.
 */
module Markers {
  import opened Wrappers
  import opened Text

  datatype Marker = Open | Close

  /** The characters a marker starts with. */
  function Lead(m: Marker): string {
    if m == Open then "<:" else "</:"
  }

  /** What a marker whose NAME is `name` is replaced by. */
  function Replacement(m: Marker, name: string): string {
    if m == Open then "<span class=\"" + name + "\">" else "</span>"
  }

  /** `Lead(m)` occurs in `s` at index `i`, compared character by character. */
  predicate LeadAt(s: string, i: nat, m: Marker) {
    match m
    case Open => i + 2 <= |s| && s[i] == '<' && s[i + 1] == ':'
    case Close => i + 3 <= |s| && s[i] == '<' && s[i + 1] == '/' && s[i + 2] == ':'
  }

  /** One `re.sub` pass for marker kind `m`. */
  function Substitute(s: string, m: Marker): string
    decreases |s|
  {
    if s == [] then []
    else if LeadAt(s, 0, m) then
      match Find(s, '>', |Lead(m)|)
      case Some(j) => Replacement(m, s[|Lead(m)|..j]) + Substitute(s[j + 1..], m)
      case None => [s[0]] + Substitute(s[1..], m)
    else [s[0]] + Substitute(s[1..], m)
  }

  /** Both passes, opening markers first, as applied to every rendered entry. */
  function RenderMarkers(text: string): string {
    Substitute(Substitute(text, Open), Close)
  }

  /** A first character that starts no marker is copied as it is. */
  lemma SkipOne(s: string, m: Marker)
    requires s != [] && !LeadAt(s, 0, m)
    ensures Substitute(s, m) == [s[0]] + Substitute(s[1..], m)
  {
  }

  /** Splitting off the first character of `p`, in front of `r` and in front of `u`. */
  lemma ConsShape(p: string, r: string, u: string)
    requires p != []
    ensures (p + r)[0] == p[0] && (p + r)[1..] == p[1..] + r
    ensures [p[0]] + (p[1..] + u) == p + u
  {
    assert (p + r)[1..] == p[1..] + r;
    assert [p[0]] + (p[1..] + u) == p + u;
  }

  /** A first character that starts no marker is copied, and the pass goes on with the rest. */
  lemma PlainHead(p: string, r: string, u: string, m: Marker)
    requires p != [] && !LeadAt(p + r, 0, m)
    requires Substitute(p[1..] + r, m) == p[1..] + u
    ensures Substitute(p + r, m) == p + u
  {
    ConsShape(p, r, u);
    SkipOne(p + r, m);
  }

  /** No marker lead can start anywhere in `t`, whatever text follows it: each `<`
      is followed inside `t` by a character other than `:`, and a `</` by one
      other than `:`. HTML markup such as `<em>`, `</em>` or `<a href="…">` qualifies. */
  predicate LeadFree(t: string) {
    forall i :: 0 <= i < |t| && t[i] == '<' ==> LessHarmlessAt(t, i)
  }

  /** The `<` at `i` is followed inside `t` by something other than `:` or `/:`. */
  predicate LessHarmlessAt(t: string, i: nat) {
    i + 1 < |t| && t[i + 1] != ':' && (t[i + 1] == '/' ==> i + 2 < |t| && t[i + 2] != ':')
  }

  /** Text without `<` is lead-free. */
  lemma NoLessLeadFree(t: string)
    requires '<' !in t
    ensures LeadFree(t)
  {
    forall i | 0 <= i < |t|
      ensures t[i] != '<'
    {
      assert t[i] in t;
    }
  }

  /** A lead-free text starts no marker, and neither does its rest. */
  lemma LeadFreeHead(p: string, r: string, m: Marker)
    requires p != [] && LeadFree(p)
    ensures !LeadAt(p + r, 0, m) && LeadFree(p[1..])
  {
    var s := p + r;
    if p[0] == '<' {
      assert s[0] == p[0] && s[1] == p[1];
      if p[1] == '/' {
        assert s[2] == p[2];
      }
    } else {
      assert s[0] == p[0];
    }
    var q := p[1..];
    forall i | 0 <= i < |q| && q[i] == '<'
      ensures LessHarmlessAt(q, i)
    {
      assert p[i + 1] == '<';
      assert q[i + 1] == p[i + 2];
      if q[i + 1] == '/' {
        assert q[i + 2] == p[i + 3];
      }
    }
  }

  /** Lead-free text passes through a substitution untouched, whatever follows it. */
  lemma {:induction false} PlainPrefix(p: string, r: string, m: Marker)
    requires LeadFree(p)
    ensures Substitute(p + r, m) == p + Substitute(r, m)
  {
    if p != [] {
      LeadFreeHead(p, r, m);
      PlainPrefix(p[1..], r, m);
      PlainHead(p, r, Substitute(r, m), m);
    } else {
      assert p + r == r;
    }
  }

  /** A marker lead closed by the `>` right after `name` is replaced, and the pass goes on with `rest`. */
  lemma TakeMarker(s: string, m: Marker, name: string, rest: string)
    requires LeadAt(s, 0, m)
    requires Find(s, '>', |Lead(m)|) == Some(|Lead(m)| + |name|)
    requires s[|Lead(m)|..|Lead(m)| + |name|] == name && s[|Lead(m)| + |name| + 1..] == rest
    ensures Substitute(s, m) == Replacement(m, name) + Substitute(rest, m)
  {
  }

  /** How a complete marker followed by `r` is laid out. */
  lemma MarkerShape(m: Marker, name: string, r: string)
    requires '>' !in name
    ensures var s := Lead(m) + name + ">" + r;
      && LeadAt(s, 0, m)
      && Find(s, '>', |Lead(m)|) == Some(|Lead(m)| + |name|)
      && s[|Lead(m)|..|Lead(m)| + |name|] == name
      && s[|Lead(m)| + |name| + 1..] == r
  {
    var s := Lead(m) + name + ">" + r;
    var n := |Lead(m)|;
    FindPast(Lead(m), name, '>', r);
    assert s[n..n + |name|] == name;
    assert s[n + |name| + 1..] == r;
  }

  /** A complete marker is replaced, and scanning resumes right after its `>`. */
  lemma MarkerStep(m: Marker, name: string, r: string)
    requires '>' !in name
    ensures Substitute(Lead(m) + name + ">" + r, m) == Replacement(m, name) + Substitute(r, m)
  {
    MarkerShape(m, name, r);
    TakeMarker(Lead(m) + name + ">" + r, m, name, r);
  }

  /** A string in which no marker lead occurs is left unchanged. */
  lemma {:induction false} NoLeadUnchanged(s: string, m: Marker)
    requires forall i :: 0 <= i < |s| ==> !LeadAt(s, i, m)
    ensures Substitute(s, m) == s
  {
    if s != [] {
      assert !LeadAt(s, 0, m);
      forall i | 0 <= i < |s[1..]|
        ensures !LeadAt(s[1..], i, m)
      {
        assert !LeadAt(s, i + 1, m);
      }
      NoLeadUnchanged(s[1..], m);
      assert s == [s[0]] + s[1..];
    }
  }

  /** Rendered text without any marker lead comes out exactly as it went in. */
  lemma RenderUnmarked(text: string)
    requires forall i :: 0 <= i < |text| ==> !LeadAt(text, i, Open) && !LeadAt(text, i, Close)
    ensures RenderMarkers(text) == text
  {
    NoLeadUnchanged(text, Open);
    NoLeadUnchanged(text, Close);
  }

  /** A first character that starts no marker, then text without `<`: both are copied. */
  lemma SkipThenPlain(c: char, p: string, r: string, m: Marker)
    requires '<' !in p && !LeadAt([c] + p + r, 0, m)
    ensures Substitute([c] + p + r, m) == [c] + p + Substitute(r, m)
  {
    var s := [c] + p + r;
    SkipOne(s, m);
    assert s[0] == c && s[1..] == p + r;
    NoLessLeadFree(p);
    PlainPrefix(p, r, m);
    assert [c] + (p + Substitute(r, m)) == [c] + p + Substitute(r, m);
  }

  /** A closing marker's text has no opening lead: its only `<` is followed by `/`. */
  lemma CloseSurvivesOpenPass(name: string, r: string)
    requires '<' !in name
    ensures Substitute("</:" + name + ">" + r, Open) == "</:" + name + ">" + Substitute(r, Open)
  {
    var p := "/:" + name + ">";
    assert "</:" + name + ">" + r == ['<'] + p + r;
    assert "</:" + name + ">" + Substitute(r, Open) == ['<'] + p + Substitute(r, Open);
    assert (['<'] + p + r)[1] == '/';
    SkipThenPlain('<', p, r, Open);
  }

  /** An opening span has no closing lead: its only `<` is followed by `s`. */
  lemma SpanSurvivesClosePass(name: string, r: string)
    requires '<' !in name
    ensures Substitute(Replacement(Open, name) + r, Close) == Replacement(Open, name) + Substitute(r, Close)
  {
    var span := Replacement(Open, name);
    var s := span + r;
    assert s[1] == 's';
    assert !LeadAt(s, 0, Close);
    assert s[1..] == span[1..] + r;
    NoLessLeadFree(span[1..]);
    PlainPrefix(span[1..], r, Close);
    assert span == [span[0]] + span[1..];
  }

  // ---------------------------------------------------------------------
  // What the decorating style emits: a tree of text and named parts.

  /** A citation as the decorating style builds it: plain text (which may hold
      the backend's own markup, such as `<em>`), or a part named `name` (such as
      `bib-title`) wrapping further fragments. A part with an empty body still
      emits its two markers here, where the backend would emit nothing; such a
      part renders to an empty span, so the model covers more inputs than occur. */
  datatype Fragment = Plain(text: string) | Decorated(name: string, body: seq<Fragment>)

  predicate NoAngles(s: string) {
    '<' !in s && '>' !in s
  }

  /** Names carry no angle brackets, and text starts no marker lead: the HTML
      backend escapes `<` in field values, and its own tags are lead-free. */
  predicate WellFormed(f: Fragment)
    decreases f
  {
    match f
    case Plain(text) => LeadFree(text)
    case Decorated(name, body) => NoAngles(name) && WellFormedAll(body)
  }

  predicate WellFormedAll(fs: seq<Fragment>)
    decreases fs
  {
    fs == [] || (WellFormed(fs[0]) && WellFormedAll(fs[1..]))
  }

  /** The rendered text with markers, as the decorating style produces it. */
  function Emit(f: Fragment): string
    decreases f
  {
    match f
    case Plain(text) => text
    case Decorated(name, body) => "<:" + name + ">" + EmitAll(body) + "</:" + name + ">"
  }

  function EmitAll(fs: seq<Fragment>): string
    decreases fs
  {
    if fs == [] then "" else Emit(fs[0]) + EmitAll(fs[1..])
  }

  /** The intended HTML: every named part becomes a span of that class. */
  function Spans(f: Fragment): string
    decreases f
  {
    match f
    case Plain(text) => text
    case Decorated(name, body) => "<span class=\"" + name + "\">" + SpansAll(body) + "</span>"
  }

  function SpansAll(fs: seq<Fragment>): string
    decreases fs
  {
    if fs == [] then "" else Spans(fs[0]) + SpansAll(fs[1..])
  }

  /** The text between the two passes: opening markers replaced, closing ones still there. */
  function HalfOpen(f: Fragment): string
    decreases f
  {
    match f
    case Plain(text) => text
    case Decorated(name, body) => Replacement(Open, name) + HalfOpenAll(body) + "</:" + name + ">"
  }

  function HalfOpenAll(fs: seq<Fragment>): string
    decreases fs
  {
    if fs == [] then "" else HalfOpen(fs[0]) + HalfOpenAll(fs[1..])
  }

  /** If a pass turns `a` into `x` and `b` into `y` ahead of any rest, it turns `a + b` into `x + y`. */
  lemma PassConcat(a: string, b: string, r: string, x: string, y: string, m: Marker)
    requires Substitute(a + (b + r), m) == x + Substitute(b + r, m)
    requires Substitute(b + r, m) == y + Substitute(r, m)
    ensures Substitute(a + b + r, m) == x + y + Substitute(r, m)
  {
    assert a + b + r == a + (b + r);
    assert x + (y + Substitute(r, m)) == x + y + Substitute(r, m);
  }

  lemma {:induction false} OpenPass(f: Fragment, r: string)
    requires WellFormed(f)
    ensures Substitute(Emit(f) + r, Open) == HalfOpen(f) + Substitute(r, Open)
    decreases f, 1
  {
    match f
    case Plain(text) =>
      PlainPrefix(text, r, Open);
    case Decorated(name, body) =>
      var close := "</:" + name + ">";
      var inner := EmitAll(body);
      calc {
        Substitute(Emit(f) + r, Open);
        { assert Emit(f) + r == Lead(Open) + name + ">" + (inner + (close + r)); }
        Substitute(Lead(Open) + name + ">" + (inner + (close + r)), Open);
        { MarkerStep(Open, name, inner + (close + r)); }
        Replacement(Open, name) + Substitute(inner + (close + r), Open);
        { OpenPassAll(body, close + r); }
        Replacement(Open, name) + (HalfOpenAll(body) + Substitute(close + r, Open));
        { CloseSurvivesOpenPass(name, r); }
        Replacement(Open, name) + (HalfOpenAll(body) + (close + Substitute(r, Open)));
        HalfOpen(f) + Substitute(r, Open);
      }
  }

  lemma {:induction false} OpenPassAll(fs: seq<Fragment>, r: string)
    requires WellFormedAll(fs)
    ensures Substitute(EmitAll(fs) + r, Open) == HalfOpenAll(fs) + Substitute(r, Open)
    decreases fs, 0
  {
    if fs != [] {
      var rest := EmitAll(fs[1..]);
      OpenPass(fs[0], rest + r);
      OpenPassAll(fs[1..], r);
      PassConcat(Emit(fs[0]), rest, r, HalfOpen(fs[0]), HalfOpenAll(fs[1..]), Open);
    } else {
      assert EmitAll(fs) + r == r;
    }
  }

  lemma {:induction false} ClosePass(f: Fragment, r: string)
    requires WellFormed(f)
    ensures Substitute(HalfOpen(f) + r, Close) == Spans(f) + Substitute(r, Close)
    decreases f, 1
  {
    match f
    case Plain(text) =>
      PlainPrefix(text, r, Close);
    case Decorated(name, body) =>
      var close := "</:" + name + ">";
      var inner := HalfOpenAll(body);
      calc {
        Substitute(HalfOpen(f) + r, Close);
        { assert HalfOpen(f) + r == Replacement(Open, name) + (inner + (close + r)); }
        Substitute(Replacement(Open, name) + (inner + (close + r)), Close);
        { SpanSurvivesClosePass(name, inner + (close + r)); }
        Replacement(Open, name) + Substitute(inner + (close + r), Close);
        { ClosePassAll(body, close + r); }
        Replacement(Open, name) + (SpansAll(body) + Substitute(close + r, Close));
        { assert close + r == Lead(Close) + name + ">" + r;
          MarkerStep(Close, name, r); }
        Replacement(Open, name) + (SpansAll(body) + (Replacement(Close, name) + Substitute(r, Close)));
        Spans(f) + Substitute(r, Close);
      }
  }

  lemma {:induction false} ClosePassAll(fs: seq<Fragment>, r: string)
    requires WellFormedAll(fs)
    ensures Substitute(HalfOpenAll(fs) + r, Close) == SpansAll(fs) + Substitute(r, Close)
    decreases fs, 0
  {
    if fs != [] {
      var rest := HalfOpenAll(fs[1..]);
      ClosePass(fs[0], rest + r);
      ClosePassAll(fs[1..], r);
      PassConcat(HalfOpen(fs[0]), rest, r, Spans(fs[0]), SpansAll(fs[1..]), Close);
    } else {
      assert HalfOpenAll(fs) + r == r;
    }
  }

  /** The two passes turn every decorated citation into its span markup, at any nesting depth. */
  lemma RenderDecorated(f: Fragment)
    requires WellFormed(f)
    ensures RenderMarkers(Emit(f)) == Spans(f)
  {
    OpenPass(f, "");
    assert Emit(f) + "" == Emit(f);
    assert HalfOpen(f) + "" == HalfOpen(f);
    ClosePass(f, "");
    assert Spans(f) + "" == Spans(f);
  }

  /** `<:foo>X</:foo>` becomes exactly `<span class="foo">X</span>`. */
  lemma RenderSingleMarker(foo: string, x: string)
    requires NoAngles(foo) && LeadFree(x)
    ensures RenderMarkers("<:" + foo + ">" + x + "</:" + foo + ">") == "<span class=\"" + foo + "\">" + x + "</span>"
  {
    var f := Decorated(foo, [Plain(x)]);
    assert WellFormedAll([Plain(x)][1..]);
    assert EmitAll([Plain(x)]) == x;
    assert SpansAll([Plain(x)]) == x;
    RenderDecorated(f);
  }

  /** Lead-free texts stay lead-free when put side by side. */
  lemma LeadFreeConcat(a: string, b: string)
    requires LeadFree(a) && LeadFree(b)
    ensures LeadFree(a + b)
  {
    var t := a + b;
    forall i | 0 <= i < |t| && t[i] == '<'
      ensures LessHarmlessAt(t, i)
    {
      if i < |a| {
        assert a[i] == '<' && t[i + 1] == a[i + 1];
        if a[i + 1] == '/' {
          assert t[i + 2] == a[i + 2];
        }
      } else {
        assert b[i - |a|] == '<' && t[i + 1] == b[i - |a| + 1];
        if b[i - |a| + 1] == '/' {
          assert t[i + 2] == b[i - |a| + 2];
        }
      }
    }
  }

  /** Text without `<` set in italics by the HTML backend, `<em>…</em>`, is lead-free. */
  lemma EmphasisLeadFree(x: string)
    requires '<' !in x
    ensures LeadFree("<em>" + x + "</em>")
  {
    var open, close := "<em>", "</em>";
    assert open[1] == 'e';
    assert close[1] == '/' && close[2] == 'e';
    NoLessLeadFree(x);
    LeadFreeConcat(open, x);
    LeadFreeConcat(open + x, close);
  }

  /** A part whose body the backend set in italics, such as a book title inside
      `bib-btitle`, keeps its `<em>` markup inside the span. */
  lemma RenderEmphasised(name: string, x: string)
    requires NoAngles(name) && '<' !in x
    ensures RenderMarkers("<:" + name + ">" + ("<em>" + x + "</em>") + "</:" + name + ">")
         == "<span class=\"" + name + "\">" + ("<em>" + x + "</em>") + "</span>"
  {
    EmphasisLeadFree(x);
    RenderSingleMarker(name, "<em>" + x + "</em>");
  }
}

=== FILE: pelican.dfy ===
/**
 * The populator: `generator_init` and `add_publications_to_context`, which
 * read the bibliography, format it, and write `publications` and
 * `publications_lists` into a generator's template context.
 */
module Pelican {
  import opened Wrappers
  import opened Markers
  import opened Bibdata

  /** `PUBLICATIONS_SRC`: one path or a list of paths. */
  datatype Src = SrcFile(path: string) | SrcFiles(paths: seq<string>)

  /** The plugin's settings; `None` stands for a setting that is absent. */
  datatype Settings = Settings(
    src: Option<Src>,
    splitBy: Option<string>,
    untaggedTitle: Option<string>,
    decorateHtml: bool,
    customStyle: bool,
    defaultTemplate: Option<string>)

  /** What importing `pybtex_plugins.PelicanStyle` yields. */
  datatype PluginStyle = PluginMissing | NotAStyle | PluginFound

  /** A value of the template context. */
  datatype Value = Py(lit: Literal) | Records(recs: seq<Record>) | Groups(groups: map<string, seq<Record>>)

  /** A template context: a dictionary that several owners may hold. */
  class Context {
    var entries: map<string, Value>

    constructor (entries: map<string, Value>)
      ensures this.entries == entries
    {
      this.entries := entries;
    }

    /** `dict.copy()`: a new dictionary with the same contents. */
    method Copy() returns (c: Context)
      ensures fresh(c) && c.entries == entries
    {
      c := new Context(entries);
    }

    /** `dict.update(other)`: the keys of `other` take its values, the rest are kept. */
    method Update(other: map<string, Value>)
      modifies this
      ensures entries == old(entries) + other
    {
      entries := entries + other;
    }

    /** `d[k] = v` */
    method Set(k: string, v: Value)
      modifies this
      ensures entries == old(entries)[k := v]
    {
      entries := entries[k := v];
    }
  }

  /** A Pelican generator as the plugin sees it. `styleArgs` is the
      `PUBLICATIONS_STYLE_ARGS` dictionary, which the populator updates in place. */
  class Generator {
    const settings: Settings
    const path: string
    var context: Context
    var styleArgs: Option<StyleArgs>

    constructor (settings: Settings, path: string, context: Context, styleArgs: Option<StyleArgs>)
      ensures this.settings == settings && this.path == path
      ensures this.context == context && this.styleArgs == styleArgs
    {
      this.settings := settings;
      this.path := path;
      this.context := context;
      this.styleArgs := styleArgs;
    }
  }

  /** The style class used: the site's `PelicanStyle` only when the setting asks
      for it and the import yields a style class; otherwise pybtex's plain style. */
  function StyleOf(settings: Settings, plugin: PluginStyle): (s: Style)
    ensures s.decorated == settings.decorateHtml
    ensures s.base == PelicanStyle <==> settings.customStyle && plugin == PluginFound
  {
    var base := if settings.customStyle && plugin == PluginFound then PelicanStyle else PlainStyle;
    Style(base, settings.decorateHtml)
  }

  /** The keyword arguments the style is built with: the setting, overridden by the caller's. */
  function Kwargs(setting: Option<StyleArgs>, extra: StyleArgs): (k: StyleArgs)
    ensures k.Keys == setting.GetOr(map[]).Keys + extra.Keys
    ensures forall a :: a in extra ==> k[a] == extra[a]
    ensures forall a :: a in setting.GetOr(map[]) && a !in extra ==> k[a] == setting.GetOr(map[])[a]
  {
    setting.GetOr(map[]) + extra
  }

  /** The items the populator produces: one per entry the style formats. */
  function PopulatedItems(p: Pybtex, style: Style, kwargs: StyleArgs, splitBy: Option<string>,
                          files: seq<string>, refsString: string): (items: seq<Item>)
    requires FormatsOnlyGiven(p)
  {
    var entries := Collect(p, files, refsString);
    FormattedKnown(p, style, kwargs, entries);
    ItemsOf(entries, p.format(style, kwargs, entries), p.write, splitBy)
  }

  /** The context after population: exactly the two keys `publications` and
      `publications_lists` are written, everything else is kept. */
  function Populated(ctx: map<string, Value>, items: seq<Item>, untaggedTitle: Option<string>): (r: map<string, Value>)
    ensures r.Keys == ctx.Keys + {"publications", "publications_lists"}
    ensures forall k :: k in ctx && k != "publications" && k != "publications_lists" ==> r[k] == ctx[k]
    ensures r["publications"].Records? && |r["publications"].recs| == |items|
    ensures forall i :: 0 <= i < |items| ==> r["publications"].recs[i] == items[i].rec
    ensures r["publications_lists"] == Groups(Lists(items, untaggedTitle))
  {
    ctx["publications" := Records(Publications(items))]["publications_lists" := Groups(Lists(items, untaggedTitle))]
  }

  /** The context after `add_publications_to_context`: unchanged when pybtex cannot be loaded. */
  function AfterPopulate(ctx: map<string, Value>, settings: Settings, setting: Option<StyleArgs>,
                         pybtex: Option<Pybtex>, plugin: PluginStyle,
                         files: seq<string>, refsString: string, extra: StyleArgs): (r: map<string, Value>)
    requires pybtex.Some? ==> FormatsOnlyGiven(pybtex.value)
    ensures pybtex.None? ==> r == ctx
    ensures pybtex.Some? ==> r.Keys == ctx.Keys + {"publications", "publications_lists"}
  {
    if pybtex.None? then ctx
    else
      var items := PopulatedItems(pybtex.value, StyleOf(settings, plugin), Kwargs(setting, extra),
                                  settings.splitBy, files, refsString);
      Populated(ctx, items, settings.untaggedTitle)
  }

  /** `PUBLICATIONS_STYLE_ARGS` after the populator has run: the caller's arguments are merged into it. */
  function SettingAfter(setting: Option<StyleArgs>, pybtex: Option<Pybtex>, extra: StyleArgs): (r: Option<StyleArgs>)
    ensures r.None? <==> setting.None?
    ensures r.Some? && pybtex.Some? ==> r.value == Kwargs(setting, extra)
    ensures pybtex.None? ==> r == setting
  {
    if pybtex.Some? && setting.Some? then Some(setting.value + extra) else setting
  }

  /** The entries of every source, later ones replacing earlier ones by key. */
  method CollectEntries(p: Pybtex, files: seq<string>, refsString: string) returns (entries: EntryMap)
    ensures entries == Collect(p, files, refsString)
  {
    entries := map[];
    for i := 0 to |files|
      invariant entries == MergeSources(FileSources(p, files[..i]))
    {
      var front := FileSources(p, files[..i]);
      var next := FileSources(p, files[..i + 1]);
      assert next == front + [p.parseFile(files[i])];
      assert next[..|next| - 1] == front;
      entries := entries + p.parseFile(files[i]);
    }
    assert files[..|files|] == files;
    if refsString != "" {
      var all := Sources(p, files, refsString);
      assert all[..|all| - 1] == FileSources(p, files);
      entries := entries + p.parseString(refsString);
    } else {
      assert Sources(p, files, refsString) == FileSources(p, files);
    }
  }

  lemma TakeOneMore<T>(s: seq<T>, n: nat)
    requires n < |s|
    ensures s[..n + 1] == s[..n] + [s[n]]
  {
  }

  /** `publications_lists` holds, for every tag seen so far, the records gathered under it. */
  ghost predicate GroupsSoFar(lists: map<string, seq<Record>>, front: seq<Item>) {
    && lists.Keys == TagSet(front)
    && forall t :: t in lists ==> lists[t] == Gather(front, Tagged(t))
  }

  /** The loop that gives each tag a list: missing tags get an empty one, present lists are kept. */
  method CreateKeys(lists: map<string, seq<Record>>, tags: seq<string>) returns (r: map<string, seq<Record>>)
    ensures r.Keys == lists.Keys + set t | t in tags
    ensures forall t :: t in lists ==> r[t] == lists[t]
    ensures forall t :: t in r && t !in lists ==> r[t] == []
  {
    r := lists;
    for j := 0 to |tags|
      invariant r.Keys == lists.Keys + set t | t in tags[..j]
      invariant forall t :: t in lists ==> r[t] == lists[t]
      invariant forall t :: t in r && t !in lists ==> r[t] == []
    {
      assert tags[..j + 1] == tags[..j] + [tags[j]];
      r := r[tags[j] := Get(r, tags[j]).GetOr([])];
    }
    assert tags[..|tags|] == tags;
  }

  /** An entry's tags, and the tag lists with a list for each of them: nothing
      changes unless the split field is set and the entry's value for it is non-empty. */
  method EntryTagLists(entry: Entry, splitBy: Option<string>, lists: map<string, seq<Record>>)
    returns (tags: seq<string>, created: map<string, seq<Record>>)
    ensures tags == EntryTags(splitBy, entry)
    ensures created.Keys == lists.Keys + set t | t in tags
    ensures forall t :: t in lists ==> created[t] == lists[t]
    ensures forall t :: t in created && t !in lists ==> created[t] == []
  {
    tags := [];
    created := lists;
    if Truthy(splitBy) {
      var value := Get(entry.fields, splitBy.value);
      if value.Some? && value.value != "" {
        tags := SplitTags(value.value);
        created := CreateKeys(lists, tags);
      }
    }
  }

  /** The loop that appends a record to the list of each of its tags, once per occurrence. */
  method AppendRecord(lists: map<string, seq<Record>>, tags: seq<string>, record: Record) returns (r: map<string, seq<Record>>)
    requires forall t :: t in tags ==> t in lists
    ensures r.Keys == lists.Keys
    ensures forall t :: t in r ==> r[t] == lists[t] + Repeat(record, multiset(tags)[t])
  {
    r := lists;
    for j := 0 to |tags|
      invariant r.Keys == lists.Keys
      invariant forall t :: t in r ==> r[t] == lists[t] + Repeat(record, multiset(tags[..j])[t])
    {
      var tag := tags[j];
      assert tags[..j + 1] == tags[..j] + [tag];
      RepeatSnoc(record, multiset(tags[..j])[tag]);
      r := r[tag := r[tag] + [record]];
    }
    assert tags[..|tags|] == tags;
  }

  /** Creating the keys and then appending one item's record keeps `GroupsSoFar` for one more item. */
  lemma GroupsStep(lists: map<string, seq<Record>>, created: map<string, seq<Record>>,
                   appended: map<string, seq<Record>>, front: seq<Item>, it: Item)
    requires GroupsSoFar(lists, front)
    requires created.Keys == lists.Keys + set t | t in it.tags
    requires forall t :: t in lists ==> created[t] == lists[t]
    requires forall t :: t in created && t !in lists ==> created[t] == []
    requires appended.Keys == created.Keys
    requires forall t :: t in appended ==> appended[t] == created[t] + Repeat(it.rec, multiset(it.tags)[t])
    ensures GroupsSoFar(appended, front + [it])
  {
    TagSetSnoc(front, it);
    forall t | t in appended
      ensures appended[t] == Gather(front + [it], Tagged(t))
    {
      GatherSnoc(front, it, Tagged(t));
      if t !in lists {
        UnusedTagGathersNothing(front, t);
      }
    }
  }

  /** After the last item, adding the fallback list gives `Lists`. */
  lemma GroupsDone(lists: map<string, seq<Record>>, items: seq<Item>, untaggedTitle: Option<string>,
                   untagged: seq<Record>, result: map<string, seq<Record>>)
    requires GroupsSoFar(lists, items)
    requires untagged == if Truthy(untaggedTitle) then Gather(items, NoTags) else []
    requires result == if Truthy(untaggedTitle) && untagged != [] then lists[untaggedTitle.value := untagged] else lists
    ensures result == Lists(items, untaggedTitle)
  {
    var tagged := map t | t in TagSet(items) :: Gather(items, Tagged(t));
    assert lists == tagged;
    assert untagged != [] && Truthy(untaggedTitle) <==> FallbackShown(items, untaggedTitle);
  }

  /** The loop over formatted entries: the flat list of records and the
      tag lists, the fallback list added at the end when it is shown. */
  method BuildLists(entries: EntryMap, formatted: seq<Formatted>, write: (string, Entry) -> string,
                    splitBy: Option<string>, untaggedTitle: Option<string>)
    returns (publications: seq<Record>, result: map<string, seq<Record>>)
    requires AllKnown(entries, formatted)
    ensures publications == Publications(ItemsOf(entries, formatted, write, splitBy))
    ensures result == Lists(ItemsOf(entries, formatted, write, splitBy), untaggedTitle)
  {
    ghost var items := ItemsOf(entries, formatted, write, splitBy);
    publications := [];
    var lists: map<string, seq<Record>> := map[];
    var untagged: seq<Record> := [];

    for n := 0 to |formatted|
      invariant publications == Publications(items[..n])
      invariant GroupsSoFar(lists, items[..n])
      invariant untagged == if Truthy(untaggedTitle) then Gather(items[..n], NoTags) else []
    {
      ghost var front := items[..n];
      var key := formatted[n].key;
      var entry := entries[key];

      var tags, created := EntryTagLists(entry, splitBy, lists);
      assert tags == items[n].tags;

      var bibtex := write(key, entry);
      var text := RenderMarkers(formatted[n].html);
      var record := MakeRecord(key, entry, text, bibtex);
      assert record == items[n].rec;

      publications := publications + [record];
      PublicationsSnoc(front, items[n]);

      var appended := AppendRecord(created, tags, record);
      GroupsStep(lists, created, appended, front, items[n]);
      lists := appended;

      if tags == [] && Truthy(untaggedTitle) {
        untagged := untagged + [record];
      }
      GatherUntaggedSnoc(front, items[n]);
      TakeOneMore(items, n);
    }
    assert items[..|formatted|] == items;

    result := lists;
    if Truthy(untaggedTitle) && untagged != [] {
      result := lists[untaggedTitle.value := untagged];
    }
    GroupsDone(lists, items, untaggedTitle, untagged, result);
  }

  /** `add_publications_to_context`. */
  method AddPublicationsToContext(g: Generator, pybtex: Option<Pybtex>, plugin: PluginStyle,
                                  files: seq<string>, refsString: string, extra: StyleArgs)
    requires pybtex.Some? ==> FormatsOnlyGiven(pybtex.value)
    modifies g, g.context
    ensures g.context == old(g.context)
    ensures g.context.entries == AfterPopulate(old(g.context.entries), g.settings, old(g.styleArgs),
                                               pybtex, plugin, files, refsString, extra)
    ensures g.styleArgs == SettingAfter(old(g.styleArgs), pybtex, extra)
  {
    if pybtex.None? {
      return;
    }
    var p := pybtex.value;
    var kwargs := Kwargs(g.styleArgs, extra);
    if g.styleArgs.Some? {
      g.styleArgs := Some(g.styleArgs.value + extra);
    }
    var style := StyleOf(g.settings, plugin);

    var entries := CollectEntries(p, files, refsString);
    var formatted := p.format(style, kwargs, entries);
    FormattedKnown(p, style, kwargs, entries);
    var publications, lists := BuildLists(entries, formatted, p.write, g.settings.splitBy, g.settings.untaggedTitle);

    g.context.Set("publications", Records(publications));
    g.context.Set("publications_lists", Groups(lists));
  }

  /** The paths `PUBLICATIONS_SRC` names: a single path stands for a one-element list. */
  function SrcPaths(src: Src): (paths: seq<string>)
    ensures src.SrcFile? ==> paths == [src.path]
    ensures src.SrcFiles? ==> paths == src.paths
  {
    match src
    case SrcFile(f) => [f]
    case SrcFiles(fs) => fs
  }

  /** `generator_init`: populate the context from `PUBLICATIONS_SRC` when it is set. */
  method GeneratorInit(g: Generator, pybtex: Option<Pybtex>, plugin: PluginStyle)
    requires pybtex.Some? ==> FormatsOnlyGiven(pybtex.value)
    modifies g, g.context
    ensures g.context == old(g.context)
    ensures g.settings.src.None? ==> g.context.entries == old(g.context.entries) && g.styleArgs == old(g.styleArgs)
    ensures g.settings.src.Some? ==>
      && g.context.entries == AfterPopulate(old(g.context.entries), g.settings, old(g.styleArgs),
                                            pybtex, plugin, SrcPaths(g.settings.src.value), "", map[])
      && g.styleArgs == old(g.styleArgs)
  {
    if g.settings.src.Some? {
      ghost var setting := g.styleArgs;
      if setting.Some? {
        assert setting.value + map[] == setting.value;
      }
      var refsFiles := SrcPaths(g.settings.src.value);
      AddPublicationsToContext(g, pybtex, plugin, refsFiles, "", map[]);
    }
  }
}

=== FILE: text.dfy ===
/**
 * The Python string built-ins the plugin relies on: `str.strip()`,
 * `str.split(sep)` and `sep.join(parts)`, and a left-to-right search.
 */
module Text {
  import opened Wrappers

  /** The characters Python's `str.isspace` accepts, which `str.strip()` removes. */
  predicate IsSpace(c: char) {
    || ('\t' <= c <= '\r')
    || ('\U{1C}' <= c <= ' ')
    || c == '\U{85}' || c == '\U{A0}' || c == '\U{1680}'
    || ('\U{2000}' <= c <= '\U{200A}')
    || c == '\U{2028}' || c == '\U{2029}' || c == '\U{202F}' || c == '\U{205F}' || c == '\U{3000}'
  }

  predicate AllSpace(s: string) {
    forall i :: 0 <= i < |s| ==> IsSpace(s[i])
  }

  /** `s` neither starts nor ends with white space. */
  predicate Trimmed(s: string) {
    s == [] || (!IsSpace(s[0]) && !IsSpace(s[|s| - 1]))
  }

  /** Leading white space removed: the longest suffix of `s` that does not start with white space. */
  function TrimStart(s: string): (r: string)
    ensures |r| <= |s| && r == s[|s| - |r|..]
    ensures forall i :: 0 <= i < |s| - |r| ==> IsSpace(s[i])
    ensures r == [] || !IsSpace(r[0])
  {
    if s != [] && IsSpace(s[0]) then
      var r := TrimStart(s[1..]);
      assert s[1..][|s| - 1 - |r|..] == s[|s| - |r|..];
      r
    else s
  }

  /** Trailing white space removed: the longest prefix of `s` that does not end with white space. */
  function TrimEnd(s: string): (r: string)
    ensures |r| <= |s| && r == s[..|r|]
    ensures forall i :: |r| <= i < |s| ==> IsSpace(s[i])
    ensures r == [] || !IsSpace(r[|r| - 1])
  {
    if s != [] && IsSpace(s[|s| - 1]) then
      var r := TrimEnd(s[..|s| - 1]);
      assert s[..|s| - 1][..|r|] == s[..|r|];
      r
    else s
  }

  /** `s.strip()` */
  function Strip(s: string): (r: string)
    ensures Trimmed(r)
    ensures AllSpace(s) ==> r == []
    ensures Trimmed(s) ==> r == s
    ensures forall c :: c in r ==> c in s
  {
    var t := TrimStart(s);
    if t == [] then t
    else
      assert !IsSpace(t[0]);
      TrimEnd(t)
  }

  /** `s.strip()` is the infix of `s` left once the white space at both ends is cut off. */
  lemma StripIsInfix(s: string) returns (i: nat, j: nat)
    ensures i <= j <= |s| && Strip(s) == s[i..j]
    ensures AllSpace(s[..i]) && AllSpace(s[j..])
  {
    var t := TrimStart(s);
    i := |s| - |t|;
    var r := TrimEnd(t);
    j := i + |r|;
    assert t == s[i..];
    assert r == s[i..j];
    assert s[j..] == t[|r|..];
  }

  /** The first index at or after `from` where `c` occurs in `s`, or `None`. */
  function Find(s: string, c: char, from: nat): (r: Option<nat>)
    requires from <= |s|
    ensures r.Some? ==> from <= r.value < |s| && s[r.value] == c
    ensures r.Some? ==> forall k :: from <= k < r.value ==> s[k] != c
    ensures r.None? ==> forall k :: from <= k < |s| ==> s[k] != c
    decreases |s| - from
  {
    if from == |s| then None
    else if s[from] == c then Some(from)
    else Find(s, c, from + 1)
  }

  /** Searching from the end of `x`, the first `c` is the one right after `a`, when `a` has none. */
  lemma FindPast(x: string, a: string, c: char, b: string)
    requires c !in a
    ensures Find(x + a + [c] + b, c, |x|) == Some(|x| + |a|)
  {
    var s := x + a + [c] + b;
    assert s[|x| + |a|] == c;
    assert forall k :: |x| <= k < |x| + |a| ==> s[k] == a[k - |x|];
  }

  /** `glue.join(parts)` */
  function Join(parts: seq<string>, glue: string): string
  {
    if parts == [] then ""
    else if |parts| == 1 then parts[0]
    else parts[0] + glue + Join(parts[1..], glue)
  }

  /** `s.split(sep)` for a one-character separator: never empty, no piece holds `sep`,
      and joining the pieces back with `sep` gives `s`. */
  function Split(s: string, sep: char): (parts: seq<string>)
    ensures |parts| >= 1
    ensures forall i :: 0 <= i < |parts| ==> sep !in parts[i]
    ensures Join(parts, [sep]) == s
    decreases |s|
  {
    match Find(s, sep, 0)
    case None =>
      [s]
    case Some(i) =>
      var rest := Split(s[i + 1..], sep);
      assert s == s[..i] + [sep] + s[i + 1..];
      [s[..i]] + rest
  }

  /** Splitting undoes joining, for pieces that do not contain the separator. */
  lemma {:induction false} SplitJoin(parts: seq<string>, sep: char)
    requires |parts| >= 1
    requires forall i :: 0 <= i < |parts| ==> sep !in parts[i]
    ensures Split(Join(parts, [sep]), sep) == parts
  {
    var s := Join(parts, [sep]);
    if |parts| == 1 {
      assert Find(s, sep, 0).None?;
    } else {
      var p := parts[0];
      var rest := Join(parts[1..], [sep]);
      assert s == p + [sep] + rest;
      assert s[|p|] == sep;
      assert forall k :: 0 <= k < |p| ==> s[k] != sep;
      assert Find(s, sep, 0) == Some(|p|);
      assert s[..|p|] == p;
      assert s[|p| + 1..] == rest;
      SplitJoin(parts[1..], sep);
      assert parts == [p] + parts[1..];
    }
  }
}

=== FILE: wrappers.dfy ===
/** Option and Result, standing in for Python's `None` and for raised exceptions. */
module Wrappers {

  datatype Option<+T> = None | Some(value: T) {
    function GetOr(default: T): T {
      match this
      case Some(v) => v
      case None => default
    }
  }

  datatype Result<+R, +E> = Success(value: R) | Failure(error: E)

  /** Python truthiness of an optional string setting: present and non-empty. */
  predicate Truthy(o: Option<string>) {
    o.Some? && o.value != ""
  }

  /** `d.get(k)`: the value stored under `k`, or `None`. */
  function Get<K, V>(d: map<K, V>, k: K): (r: Option<V>)
    ensures r.Some? <==> k in d
    ensures r.Some? ==> r.value == d[k]
  {
    if k in d then Some(d[k]) else None
  }
}
